=== FILE: README.md ===
# Spike-to-code pipeline of `neural_coding.py`, in Dafny

This project models the coding pipeline of a grid-cell / granule-cell
pattern-separation study. A *sample* is one spike train per cell, each a list
of spike times in milliseconds. The pipeline has three parts.

- **Binning.** `_spike_counter` cuts the duration into bins of `bin_size_ms`.
  It counts each cell's spikes strictly inside each bin.
  `_phase_definer` gives each non-empty bin the mean phase of its spikes,
  `(t mod b)/b * 2*pi`, and gives every empty bin 0. Its optional
  `nan_fill` replaces those zeros with the mean of all nonzero phases.
- **Encoding.** `_code_maker` flattens the two cell x bin matrices in
  C order. From them it builds three codes of length `2*N`:
  - the rate code: the count at a fixed angle;
  - the phase code: a saturation constant wherever the count is nonzero,
    at the bin's phase;
  - the polar code: the count at the bin's phase.

  Each code holds all cosine parts first, then all sine parts.
- **Assembly.** `rate_n_phase` does this for every (sample, trajectory) slot.
  It stacks the results into 4-D count and phase tensors and 3-D code
  tensors.

The spikes come from consolidated shelve stores.

- `collect_spikes` copies one grid seed's raw per-run files into one store
  per (grid seed, duration, shuffling, tuning). It writes one record per
  trajectory key.
- `load_spikes` reads the first `n_samples` Poisson seeds of each requested
  trajectory. If the store does not exist yet, it first parses the store's
  path and runs `collect_spikes`.

How things are represented:

- Spike times are exact `real`s. Bin size is a positive integer and the
  duration a natural number.
- `sin` and `cos` are function parameters. `pi` is a constant.
- Stores are `map<string, Record>`, and the file system is a map from path to
  store.
- Every exception the source raises on the paths the model covers is a
  `Fail(error)` of a `Result` (shelve and operating-system errors are not
  modelled).
  `collect_spikes` returns the stores it leaves behind together with the
  exception that stopped it.

Modules, one per file:

| module | file | role |
|---|---|---|
| `Outcomes` | outcomes.dfy | `Option`, `Result`, the error kinds |
| `Text` | text.dfy | `str.split`, joining, `str(int)`, `int(str)`, `s[1:-1]` |
| `Matrix` | matrix.dfy | rectangular matrices and C-order flattening |
| `Binning` | binning.dfy | `_spike_counter`, `_phase_definer` |
| `Coding` | coding.dfy | `_code_maker` |
| `Batch` | batch.dfy | `rate_n_phase` |
| `SpikeStore` | store.dfy | trajectory keys, records, `load_spikes` on an open store |
| `Consolidation` | consolidate.dfy | `collect_spikes`, store-path parsing, `load_spikes` from a path |

## Model

| member | source | states |
|---|---|---|
| Binning.NumBins | neural_coding.py:17 | `int(dur_ms / bin_size_ms)` is the number of whole bins: `n*b <= dur < (n+1)*b` |
| Binning.BinSpikes | neural_coding.py:35-37 | the spikes selected for bin `i` are exactly those strictly between `b*i` and `b*(i+1)`, each kept no more often than the train holds it (a sub-multiset of the train) |
| Binning.BinCount | neural_coding.py:22-24 | a bin's count is at most the train's length; it is 0 iff no spike lies strictly inside the bin, and equals the length iff every spike does (its size meaning is in `BinCountIsIndexCount` and `BinCountIsSelectionSize`) |
| Binning.BinCountIsSelectionSize | neural_coding.py:22-24 | the counter's mask sum equals the size of the phase definer's selection for the same bin |
| Binning.BinCountIsIndexCount | neural_coding.py:22-24 | a bin's count is the number of spike indices falling in it |
| Binning.BinOfSpike | neural_coding.py:23 | a spike is in bin `i` iff `floor(t/b) == i` and `t` is not on the edge `b*i` |
| Binning.CountedIffInSomeBin | neural_coding.py:20-25 | a spike is counted in some bin iff `0 < t < n_bins*b` and `t` is not a multiple of `b`; spikes at or below 0, at or beyond the end, or on an edge are counted nowhere |
| Binning.CountedSpikeHasOneBin | neural_coding.py:20-25 | an uncounted spike is in no bin; a counted spike is in exactly the bin `floor(t/b)` |
| Binning.SpikeCounts | neural_coding.py:16-26 | the count matrix is `n_cells x n_bins`, and entry `[c][i]` is the number of spikes of cell `c` strictly inside bin `i` |
| Binning.CountsSum | neural_coding.py:16-26 | a cell's counts add up to the number of its counted spikes, which is at most its number of spikes |
| Binning.TotalOfBins | neural_coding.py:20-25 | summing the first `k` bins of a train counts each counted spike once |
| Binning.FloatMod | neural_coding.py:40 | Python's float `t % b` lies in `[0, b)` |
| Binning.SpikePhase | neural_coding.py:40 | a spike's phase `t % b / b * 2*pi` lies in `[0, 2*pi)` |
| Binning.PhaseInsideBin | neural_coding.py:35-40 | a spike inside bin `i` sits at `t - b*i` in its bin, so its phase lies strictly between 0 and 2*pi |
| Binning.MeanPhaseInBin | neural_coding.py:38-41 | the mean phase of a non-empty bin lies strictly between 0 and 2*pi |
| Binning.NonzeroMeanBounds | neural_coding.py:43 | the mean of the nonzero entries of a list of angles (a phase matrix's entries, flattened) is itself a nonzero angle below 2*pi |
| Binning.FillEmpty | neural_coding.py:42-44 | filling keeps the shape, leaves every nonzero entry unchanged, and sets every zero entry to the mean of the nonzero entries of the whole matrix |
| Binning.FillLeavesNoZero | neural_coding.py:42-44 | after filling, every entry of a matrix of angles lies strictly between 0 and 2*pi |
| Binning.PhaseDefiner | neural_coding.py:29-45 | the phase matrix is `n_cells x n_bins`; a non-empty bin holds the mean phase of its spikes, strictly inside (0, 2*pi); without fill, an entry is 0 iff its bin is empty; with fill, the result is the unfilled matrix with its zeros replaced by the mean of its nonzero entries, and no entry is 0 |
| Matrix.FlattenIndex | neural_coding.py:51-52 | C-order flattening puts entry `[r][c]` of a `rows x cols` matrix at position `r*cols + c` of a list of length `rows*cols` |
| Coding.Saturate | neural_coding.py:54-57 | the phase-code magnitudes are the saturation constant where the count is nonzero and 0 where it is zero |
| Coding.Project | neural_coding.py:60-72 | a code is the cosine parts of all entries followed by their sine parts |
| Coding.CodeMaker | neural_coding.py:48-74 | all three codes have length `2*N`; cell `c`, bin `i` (flattened index `k = c*n_bins + i`) puts its cosine part at `k` and its sine part at `N + k`: the count at the fixed angle (rate), the saturation constant or 0 at the phase (phase), the count at the phase (polar) |
| Coding.EmptyBinsAreZero | neural_coding.py:57-72 | a bin with count 0 contributes 0 to both halves of all three codes |
| Coding.RateIgnoresPhases | neural_coding.py:59-62 | the rate code depends on the counts only: other phases give the same rate code |
| Coding.PhaseCodeSeesOnlyActivity | neural_coding.py:54-67 | the phase code depends on the counts only through which are nonzero |
| Coding.SameActivityFlattened | neural_coding.py:54-57 | count matrices that are zero in the same places saturate to the same magnitudes |
| Batch.Stack4 | neural_coding.py:118-119 | the stacked tensor has shape `[rows, cols, n_samples, n_traj]`, and its slice `[:, :, s, t]` is slot `(s, t)`'s matrix |
| Batch.Stack3 | neural_coding.py:120-122 | the stacked tensor has shape `[len, n_samples, n_traj]`, and its column `[:, s, t]` is slot `(s, t)`'s code |
| Batch.Assemble | neural_coding.py:134-141 | each slot's count and phase matrices and codes land in their own slice or column of the five outputs |
| Batch.SampleCodes | neural_coding.py:136-138 | a sample's codes have length `2*n_cell*n_bins` |
| Batch.SampleFault | neural_coding.py:126-141 | the inner loop over one trajectory's samples raises iff one of the indices it reads is past the end of the samples or a sample it reads cannot be stored in the slot; the error reported is that of the first such index, in loop order: `MissingSample` when the index is past the end, `ShapeMismatch` otherwise |
| Batch.SlotFault | neural_coding.py:124-141 | the slot loop raises iff some listed trajectory is missing, has fewer than `n_samples` samples, or has a sample among its first `n_samples` whose outputs cannot be stored in a slot of `n_cell` cells (numpy broadcasts a one-cell sample's matrices, but its codes are then too short unless there are no bins); the error reported is that of the first faulty trajectory in list order (every earlier one is present and fault-free): `UnknownTrajectory` if it is missing, otherwise its first sample fault |
| Batch.RateNPhase | neural_coding.py:115-142 | it returns iff the list is non-empty, the first trajectory has a sample, `n_samples >= 0`, every trajectory has `n_samples` samples, and each of those samples has `n_cell` cells (or one cell, when there are no bins); an empty list, a missing first trajectory (`KeyError` at line 117), a first trajectory without samples (`IndexError` at line 117) and a negative `n_samples` give their own errors, and past those the error is the slot loop's first fault; the outputs have the documented shapes, and slot `(s, t)` holds `_spike_counter`, `_phase_definer` (no fill) and `_code_maker` of sample `s` of trajectory `t`, as broadcast to `n_cell` rows |
| Text.Split | neural_coding.py:174 | `str.split` gives at least one field, and no field holds the separator |
| Text.SplitJoin | neural_coding.py:174 | splitting a `_`-joined name gives back its fields when none contains `_` |
| Text.JoinSplit | neural_coding.py:221 | joining the fields of a split gives back the string |
| Text.ParseNat | neural_coding.py:226 | `int(key)` of decimal text succeeds iff the text is non-empty and all digits |
| Text.IntToString | neural_coding.py:230 | `str(i)` / `f'{i}'` is non-empty, holds only digits and a leading `-` exactly for a negative `i`, and never `_` or `.`; `ParseIntToString` is its inverse |
| Text.ParseInt | neural_coding.py:175 | `int(s)` succeeds iff `s` is all digits, or `-` followed by digits; the value is non-negative without the sign and non-positive with it |
| Text.ParseIntToString | neural_coding.py:175 | `int(str(i)) == i` |
| Text.StripEnds | neural_coding.py:222 | `s[1:-1]` drops the first and last characters, and is empty for strings shorter than 2 |
| Text.StripEndsOfBracketed | neural_coding.py:222 | stripping a bracketed key gives back the key |
| SpikeStore.ParseTraj | neural_coding.py:222-226 | a key is read iff it is a non-empty run of digits or a non-empty run of digits followed by ".5"; it is read as a half trajectory iff it contains ".5" (the `float` branch) and as a whole one otherwise (the `int` branch), with the value of its digits |
| SpikeStore.TrajKey | neural_coding.py:184 | `str(traj)` is non-empty, holds no `_`, and contains ".5" iff the trajectory is a half one; `ParseTrajKey` reads it back |
| SpikeStore.ParseTrajKey | neural_coding.py:184 | reading `str(traj)` gives back `traj`, for whole and half trajectories |
| SpikeStore.TrajKeyInjective | neural_coding.py:184 | different trajectories have different store keys |
| SpikeStore.PickSeeds | neural_coding.py:199-200 | the list of spikes for the given seeds has one entry per seed, in seed order; it fails with a missing-seed error iff some seed has no spikes |
| SpikeStore.LoadOne | neural_coding.py:184-201 | a trajectory is read iff its key is stored, `1 <= n_samples <= len(seeds)`, the cell type is known and every chosen seed has spikes; what it reads is the requested cell type's spikes for the first `n_samples` seeds |
| SpikeStore.LoadSpikes | neural_coding.py:180-203 | an empty list gives `{}`; the call succeeds iff every listed trajectory can be read; on success the keys are exactly the listed trajectories, each holding the spikes of the first `n_samples` stored seeds in stored order |
| SpikeStore.LoadErrors | neural_coding.py:186-198 | for a stored trajectory: too many samples, fewer than one sample, and an unknown cell type each give their error, checked in that order |
| SpikeStore.LoadMissing | neural_coding.py:185 | a trajectory with no record is reported as unknown |
| Consolidation.ParseStorePath | neural_coding.py:173-177 | a store path is read iff it has at least seven `_`-separated fields and field 4 is an integer, and then gives exactly that integer as grid seed, field 5 as duration and field 6 as shuffling; every other path is malformed |
| Consolidation.StoreName | neural_coding.py:230-232 | when the label and tuning hold no `_`, reading the built name back as `load_spikes` does (fields 4, 5, 6) gives the grid seed, the duration's text and the shuffling label |
| Consolidation.StorePathFields | neural_coding.py:174-177 | the path spelled as prefix + `f'{grid_seed}_{dur_ms}'` + `_` + label + `_` + tuning splits into the eight fields, with the grid seed at 4, the duration at 5 and the label at 6 |
| Consolidation.ParseRawName | neural_coding.py:221-228 | a raw file name is read iff it has at least fourteen `_`-separated fields, field 9 without its brackets is a trajectory key and field 11 an integer; it then gives exactly that key and trajectory, that duration and field 13 as tuning; every other name is malformed |
| Consolidation.RawNameRoundTrip | neural_coding.py:221-228 | a name whose fields 9, 11 and 13 are a bracketed `str(traj)`, a duration and a tuning is read back as exactly those |
| Consolidation.FileWrite | neural_coding.py:221-237 | a raw file can be copied iff its name is well formed and it holds both grid and granule spikes for the named trajectory; otherwise it is a malformed-name or missing-trajectory error |
| Consolidation.FileWriteCopies | neural_coding.py:230-237 | the copy goes to the store for grid seed, the file's duration, the shuffling label and the file's tuning, under the key from the file name, and holds that trajectory's grid and granule spikes and the run's parameters |
| Consolidation.ApplyWrite | neural_coding.py:233-237 | opening a store creates it if absent; setting a key changes that key only |
| Consolidation.ApplyAllLookup | neural_coding.py:220-237 | after a series of writes each key holds the last record written to it; keys nobody wrote keep their records |
| Consolidation.ApplyAllKeys | neural_coding.py:233 | writes create the stores they name and remove none |
| Consolidation.ApplyAllTwice | neural_coding.py:233-237 | repeating a series of overwrites changes nothing |
| Consolidation.LastWriteAt | neural_coding.py:220-237 | the last write to a key is that of the last file writing it |
| Consolidation.PlanOf | neural_coding.py:220-237 | the loop's writes are all the files' writes when every file can be read; otherwise the failure is the first unreadable file's error, and the writes are exactly those of the files before it |
| Consolidation.CollectFiles | neural_coding.py:220-239 | the file loop ends without an exception iff every listed file can be copied; the exception it stops with is a malformed name or a missing trajectory; no store disappears |
| Consolidation.CollectFilesFollowsPlan | neural_coding.py:220-237 | the file loop applies exactly the planned writes, in order, and stops with the planned failure |
| Consolidation.CollectSpikes | neural_coding.py:207-237 | an unknown shuffling label raises before any store is touched; otherwise the stores afterwards are the planned writes applied to the stores before, and the call fails iff some listed file cannot be read |
| Consolidation.CollectIdempotent | neural_coding.py:207-237 | running `collect_spikes` twice over the same files gives the same stores and the same outcome as running it once |
| Consolidation.CollectLastWriterWins | neural_coding.py:220-237 | after a successful run each key holds the record of the last file that writes it, and every other key is as before |
| Consolidation.CollectedRecord | neural_coding.py:230-237 | the record under a file's key is the one that file asks for, unless a later file overwrites it |
| Consolidation.CollectedSpikes | neural_coding.py:230-237 | the consolidated record holds the raw file's grid spikes, granule spikes and parameters |
| Consolidation.LoadFromPath | neural_coding.py:173-180 | an existing store is read without consolidation and the stores are left as they are; for a missing one, a malformed path fails leaving the stores alone, a failed consolidation returns its error with the stores it left, and otherwise the store at the path (empty if the consolidation did not create it) is added and read; no store is removed |
| Consolidation.LoadCollectedPath | neural_coding.py:173-180 | loading one trajectory from the path of a store that did not exist, when the consolidation succeeds and leaves a readable record there, returns that record's spikes |
| Consolidation.LoadAgain | neural_coding.py:173-180 | loading a second time reads the same store and returns the same result |
| Consolidation.LoadOneTrajectory | neural_coding.py:182-201 | a readable trajectory alone is read as its stored spikes |
| Consolidation.ConsolidateThenLoad | neural_coding.py:173-237 | consolidating a grid seed's files and then loading grid or granule spikes for a trajectory returns the raw file's spikes of that cell type for the first `n_samples` Poisson seeds |
| Consolidation.LoadThenEncode | neural_coding.py:115-141 | when the samples `load_spikes` reads share one cell count, what it returns for a non-empty trajectory list is accepted by `rate_n_phase` for the same `n_samples`: it returns rather than raises on it |

## Left out

- Shelve files, `os.path.exists`, `glob` scanning and `copy.deepcopy` are not modelled: stores and the file system are immutable maps, and a copy is value equality.
- The directory listing is not modelled: `collect_spikes` takes the matched raw files as a list already in processing order. The glob patterns and the sorted-reverse order are left to whoever builds the list, through the `listing` parameter of `LoadFromPath`.
- The hard-coded directories are not modelled. Only the store prefix and the field positions in names are kept.
- Floating point is not modelled: no IEEE rounding in `%`, in the division or in the mean, and no actual values for `sin` and `cos`. The value of `pi` is a decimal constant.
- The input count vector is not modified: this holds trivially, because every value in the model is immutable.
- Binning.PhaseDefiner: requires that some spike be counted when `nan_fill` is set; the source computes a NaN mean in that case.
- SpikeStore.ParseTraj: reads only `<digits>` and `<digits>.5`. Other spellings that Python's `int`/`float` accept (signs, blanks, `.5` alone, other decimals) are reported as malformed.
- Text.ParseInt: reads only an optional `-` followed by digits. It does not accept `+`, surrounding blanks or `_` separators as `int()` does.
- Consolidation.FileWrite: a file whose trajectory is missing from its spikes writes nothing. When the source raises the `KeyError` it has already opened, and so created, the store (neural_coding.py:233) and set `{}` under the key (234); for a file with grid spikes but no granule spikes it has also set `grid_spikes` in the writeback cache (235), which reaches the file only if the shelf is later closed. None of these partial effects is modelled.
- Consolidation.CollectSpikes: takes no `dur_ms` argument. The source's argument is overwritten by each file's own duration before use (neural_coding.py:228), so every duration in the seed's directory is consolidated.
- Consolidation.LoadFromPath: the duration read from field 5 of the path is unused, as in the source.
- Consolidation.LoadFromPath: "the store exists" is modelled as "a store is recorded under `path`", that is, `os.path.exists(path)` (neural_coding.py:173) is taken to hold exactly for the stores a previous consolidation created. With a shelve backend that stores its data in files named `path` plus a suffix (as `dbm.dumb` does, the form the raw `*.dat` files of lines 213-217 have), `path` itself never exists and the source re-consolidates on every call; that behaviour is not modelled.
- Negative trajectories are not modelled: trajectory labels are natural numbers or natural numbers plus one half.
- `archive/figure01_20-02.py` is not part of this model: it is plotting, statistics and a Poisson spike generator.

=== FILE: batch.dfy ===
/** The batch coder, `rate_n_phase`: bins and encodes every (sample,
    trajectory) slot of a spike collection and assembles the results into
    count and phase tensors indexed [cell][bin][sample][trajectory] and code
    matrices indexed [code entry][sample][trajectory]. Every slot is computed
    from its own sample alone. */
module Batch {
  import opened Outcomes
  import opened Matrix
  import opened Binning
  import opened Coding

  /** The five outputs of `rate_n_phase`. */
  datatype Tensors = Tensors(
    counts: seq<seq<seq<seq<nat>>>>,
    phases: seq<seq<seq<seq<real>>>>,
    rate: seq<seq<seq<real>>>,
    phase: seq<seq<seq<real>>>,
    polar: seq<seq<seq<real>>>)

  /** The outputs of one (sample, trajectory) slot. */
  datatype Slot = Slot(counts: seq<seq<nat>>, phases: seq<seq<real>>, codes: Codes)

  /** An array of shape `[n1, n2, n3, n4]`. */
  predicate IsTensor4<T>(x: seq<seq<seq<seq<T>>>>, n1: nat, n2: nat, n3: nat, n4: nat)
  {
    |x| == n1 &&
    forall a :: 0 <= a < n1 ==>
      (|x[a]| == n2 &&
       forall b :: 0 <= b < n2 ==>
         (|x[a][b]| == n3 && forall c :: 0 <= c < n3 ==> |x[a][b][c]| == n4))
  }

  /** An array of shape `[n1, n2, n3]`. */
  predicate IsTensor3<T>(x: seq<seq<seq<T>>>, n1: nat, n2: nat, n3: nat)
  {
    |x| == n1 && forall a :: 0 <= a < n1 ==> IsMatrix(x[a], n2, n3)
  }

  /** `x[:, :, s, t]`. */
  function Slice<T>(x: seq<seq<seq<seq<T>>>>, n1: nat, n2: nat, n3: nat, n4: nat, s: nat, t: nat): seq<seq<T>>
    requires IsTensor4(x, n1, n2, n3, n4) && s < n3 && t < n4
  {
    seq(n1, a requires 0 <= a < n1 => seq(n2, b requires 0 <= b < n2 => x[a][b][s][t]))
  }

  /** `x[:, s, t]`. */
  function Column<T>(x: seq<seq<seq<T>>>, n1: nat, n2: nat, n3: nat, s: nat, t: nat): seq<T>
    requires IsTensor3(x, n1, n2, n3) && s < n2 && t < n3
  {
    seq(n1, a requires 0 <= a < n1 => x[a][s][t])
  }

  /** `_code_maker` of one sample's count matrix and (unfilled) phase matrix,
      with the default angle and saturation. */
  function SampleCodes(sample: Sample, binSize: BinSize, dur: nat, cos: real -> real, sin: real -> real): (codes: Codes)
    ensures |codes.rate| == |codes.phase| == |codes.polar| == 2 * (|sample| * NumBins(binSize, dur))
  {
    var counts := SpikeCounts(sample, binSize, dur);
    var phases := PhaseDefiner(sample, false, binSize, dur);
    assert |counts| * Cols(counts) == |sample| * NumBins(binSize, dur);
    CodeMaker(counts, phases, DefaultRateAngle, DefaultSaturation, cos, sin)
  }

  function SlotOf(sample: Sample, binSize: BinSize, dur: nat, cos: real -> real, sin: real -> real): Slot
  {
    Slot(SpikeCounts(sample, binSize, dur), PhaseDefiner(sample, false, binSize, dur), SampleCodes(sample, binSize, dur, cos, sin))
  }

  /** Every slot of the grid holds `nCell` x `nBins` matrices and codes of length `len`. */
  predicate SlotsShaped(slots: seq<seq<Slot>>, nS: nat, nT: nat, nCell: nat, nBins: nat, len: nat)
  {
    |slots| == nS &&
    forall s :: 0 <= s < nS ==>
      (|slots[s]| == nT &&
       forall t :: 0 <= t < nT ==>
         (IsMatrix(slots[s][t].counts, nCell, nBins) && IsMatrix(slots[s][t].phases, nCell, nBins) &&
          |slots[s][t].codes.rate| == len && |slots[s][t].codes.phase| == len && |slots[s][t].codes.polar| == len))
  }

  /** Writes each slot's outputs into its own place of the five arrays. */
  function Assemble(slots: seq<seq<Slot>>, nS: nat, nT: nat, nCell: nat, nBins: nat, len: nat): (r: Tensors)
    requires SlotsShaped(slots, nS, nT, nCell, nBins, len)
    ensures IsTensor4(r.counts, nCell, nBins, nS, nT) && IsTensor4(r.phases, nCell, nBins, nS, nT)
    ensures IsTensor3(r.rate, len, nS, nT) && IsTensor3(r.phase, len, nS, nT) && IsTensor3(r.polar, len, nS, nT)
    ensures forall s, t :: 0 <= s < nS && 0 <= t < nT ==>
      Slice(r.counts, nCell, nBins, nS, nT, s, t) == slots[s][t].counts &&
      Slice(r.phases, nCell, nBins, nS, nT, s, t) == slots[s][t].phases &&
      Column(r.rate, len, nS, nT, s, t) == slots[s][t].codes.rate &&
      Column(r.phase, len, nS, nT, s, t) == slots[s][t].codes.phase &&
      Column(r.polar, len, nS, nT, s, t) == slots[s][t].codes.polar
  {
    Tensors(Stack4(CountGrid(slots, nS, nT, nCell, nBins, len), nS, nT, nCell, nBins),
            Stack4(PhaseGrid(slots, nS, nT, nCell, nBins, len), nS, nT, nCell, nBins),
            Stack3(CodeGrid(slots, nS, nT, nCell, nBins, len, (c: Codes) => c.rate), nS, nT, len),
            Stack3(CodeGrid(slots, nS, nT, nCell, nBins, len, (c: Codes) => c.phase), nS, nT, len),
            Stack3(CodeGrid(slots, nS, nT, nCell, nBins, len, (c: Codes) => c.polar), nS, nT, len))
  }

  /** The slots' count matrices, by sample and trajectory. */
  function CountGrid(slots: seq<seq<Slot>>, nS: nat, nT: nat, nCell: nat, nBins: nat, len: nat): (g: seq<seq<seq<seq<nat>>>>)
    requires SlotsShaped(slots, nS, nT, nCell, nBins, len)
    ensures MatrixGrid(g, nS, nT, nCell, nBins)
    ensures forall s, t :: 0 <= s < nS && 0 <= t < nT ==> g[s][t] == slots[s][t].counts
  {
    seq(nS, s requires 0 <= s < nS => seq(nT, t requires 0 <= t < nT => slots[s][t].counts))
  }

  /** The slots' phase matrices, by sample and trajectory. */
  function PhaseGrid(slots: seq<seq<Slot>>, nS: nat, nT: nat, nCell: nat, nBins: nat, len: nat): (g: seq<seq<seq<seq<real>>>>)
    requires SlotsShaped(slots, nS, nT, nCell, nBins, len)
    ensures MatrixGrid(g, nS, nT, nCell, nBins)
    ensures forall s, t :: 0 <= s < nS && 0 <= t < nT ==> g[s][t] == slots[s][t].phases
  {
    seq(nS, s requires 0 <= s < nS => seq(nT, t requires 0 <= t < nT => slots[s][t].phases))
  }

  /** One of the slots' code vectors, by sample and trajectory. */
  function CodeGrid(slots: seq<seq<Slot>>, nS: nat, nT: nat, nCell: nat, nBins: nat, len: nat,
                    pick: Codes -> seq<real>): (g: seq<seq<seq<real>>>)
    requires SlotsShaped(slots, nS, nT, nCell, nBins, len)
    requires forall s, t :: 0 <= s < nS && 0 <= t < nT ==> |pick(slots[s][t].codes)| == len
    ensures IsMatrix(g, nS, nT) && forall s, t :: 0 <= s < nS && 0 <= t < nT ==> |g[s][t]| == len
    ensures forall s, t :: 0 <= s < nS && 0 <= t < nT ==> g[s][t] == pick(slots[s][t].codes)
  {
    seq(nS, s requires 0 <= s < nS => seq(nT, t requires 0 <= t < nT => pick(slots[s][t].codes)))
  }

  /** A grid of matrices, one per (sample, trajectory) slot. */
  predicate MatrixGrid<T>(grid: seq<seq<seq<seq<T>>>>, nS: nat, nT: nat, rows: nat, cols: nat)
  {
    |grid| == nS && forall s :: 0 <= s < nS ==> (|grid[s]| == nT && forall t :: 0 <= t < nT ==> IsMatrix(grid[s][t], rows, cols))
  }

  /** The grid's matrices stacked along two trailing axes: `x[:, :, s, t] = grid[s][t]`. */
  function Stack4<T>(grid: seq<seq<seq<seq<T>>>>, nS: nat, nT: nat, rows: nat, cols: nat): (x: seq<seq<seq<seq<T>>>>)
    requires MatrixGrid(grid, nS, nT, rows, cols)
    ensures IsTensor4(x, rows, cols, nS, nT)
    ensures forall s, t :: 0 <= s < nS && 0 <= t < nT ==> Slice(x, rows, cols, nS, nT, s, t) == grid[s][t]
  {
    var x := seq(rows, c requires 0 <= c < rows => seq(cols, i requires 0 <= i < cols =>
      seq(nS, s requires 0 <= s < nS => seq(nT, t requires 0 <= t < nT => grid[s][t][c][i]))));
    forall s, t | 0 <= s < nS && 0 <= t < nT ensures Slice(x, rows, cols, nS, nT, s, t) == grid[s][t] {
      var m := Slice(x, rows, cols, nS, nT, s, t);
      forall c | 0 <= c < rows ensures m[c] == grid[s][t][c] {}
    }
    x
  }

  /** The grid's vectors stacked along two trailing axes: `x[:, s, t] = grid[s][t]`. */
  function Stack3<T>(grid: seq<seq<seq<T>>>, nS: nat, nT: nat, len: nat): (x: seq<seq<seq<T>>>)
    requires IsMatrix(grid, nS, nT) && forall s, t :: 0 <= s < nS && 0 <= t < nT ==> |grid[s][t]| == len
    ensures IsTensor3(x, len, nS, nT)
    ensures forall s, t :: 0 <= s < nS && 0 <= t < nT ==> Column(x, len, nS, nT, s, t) == grid[s][t]
  {
    seq(len, k requires 0 <= k < len => seq(nS, s requires 0 <= s < nS => seq(nT, t requires 0 <= t < nT => grid[s][t][k])))
  }

  /** Whether a sample of `cells` cells can be stored in a slot made for
      `nCell` cells and `nBins` bins. numpy broadcasts a one-row count or
      phase matrix over all `nCell` rows and rejects any other row count;
      the code vectors are then assigned without broadcasting and must have
      the slot's length, `2*cells*nBins == 2*nCell*nBins`, which a one-cell
      sample meets only when there are no bins. */
  predicate Fits(cells: nat, nCell: nat, nBins: nat)
  {
    cells == nCell || (nBins == 0 && cells == 1)
  }

  /** A sample as numpy stores it in a slot of `nCell` rows: a single cell is
      repeated in every row, any other sample is stored as it is. */
  function Broadcast(sample: Sample, nCell: nat): Sample
  {
    if |sample| == 1 then seq(nCell, _ => sample[0]) else sample
  }

  /** Every listed trajectory is present with at least `n` samples. */
  predicate Available<K>(spikes: map<K, seq<Sample>>, trajs: seq<K>, n: int)
  {
    forall t :: 0 <= t < |trajs| ==> trajs[t] in spikes && |spikes[trajs[t]]| >= n
  }

  /** Every sample the slot loop reads (the first `n` of each listed
      trajectory, where they exist) fits a slot of `nCell` cells and `nBins`
      bins. Samples of unlisted trajectories and samples past the `n`-th are
      not read. */
  predicate AllFit<K>(spikes: map<K, seq<Sample>>, trajs: seq<K>, n: int, nCell: nat, nBins: nat)
  {
    forall t, s :: 0 <= t < |trajs| && 0 <= s < n && trajs[t] in spikes && s < |spikes[trajs[t]]| ==>
      Fits(|spikes[trajs[t]][s]|, nCell, nBins)
  }

  /** Sample `j` of a trajectory exists and fits the slot. */
  predicate SampleFits(samples: seq<Sample>, j: int, nCell: nat, nBins: nat)
  {
    0 <= j < |samples| && Fits(|samples[j]|, nCell, nBins)
  }

  /** Index `j` is the first of `k .. n-1` whose sample is missing or does
      not fit. */
  predicate FirstSampleFault(samples: seq<Sample>, k: nat, n: int, nCell: nat, nBins: nat, j: int)
  {
    k <= j < n && !SampleFits(samples, j, nCell, nBins) &&
    forall i :: k <= i < j ==> SampleFits(samples, i, nCell, nBins)
  }

  /** The first fault of the inner loop over samples `k .. n-1` of one
      trajectory: an index past the end of its samples, or a sample whose
      outputs cannot be stored. */
  function SampleFault(samples: seq<Sample>, k: nat, n: int, nCell: nat, nBins: nat): (e: Option<Error>)
    ensures e.None? <==> forall j :: k <= j < n ==> SampleFits(samples, j, nCell, nBins)
    ensures e.Some? ==> e.value == MissingSample || e.value == ShapeMismatch
    ensures e == Some(MissingSample) ==> |samples| < n
    ensures e == Some(ShapeMismatch) ==> exists j :: k <= j < n && j < |samples| && !Fits(|samples[j]|, nCell, nBins)
    ensures e.Some? ==> exists j :: (FirstSampleFault(samples, k, n, nCell, nBins, j) &&
      e == (if j >= |samples| then Some(MissingSample) else Some(ShapeMismatch)))
    decreases n - k
  {
    if k >= n then None
    else if k >= |samples| then
      assert FirstSampleFault(samples, k, n, nCell, nBins, k);
      Some(MissingSample)
    else if !Fits(|samples[k]|, nCell, nBins) then
      assert FirstSampleFault(samples, k, n, nCell, nBins, k);
      Some(ShapeMismatch)
    else
      assert SampleFits(samples, k, nCell, nBins);
      var rest := SampleFault(samples, k + 1, n, nCell, nBins);
      assert rest.Some? ==> exists j :: (FirstSampleFault(samples, k, n, nCell, nBins, j) &&
        rest == (if j >= |samples| then Some(MissingSample) else Some(ShapeMismatch))) by {
        if rest.Some? {
          var j :| FirstSampleFault(samples, k + 1, n, nCell, nBins, j) &&
            rest == (if j >= |samples| then Some(MissingSample) else Some(ShapeMismatch));
          assert FirstSampleFault(samples, k, n, nCell, nBins, j);
        }
      }
      rest
  }

  /** The first statement of the slot loop that raises, in the loop's order:
      a trajectory missing from the collection (`KeyError`), a sample index
      past the end of its samples (`IndexError`), or a sample whose outputs
      cannot be stored in the slot (`ValueError`). */
  function SlotFault<K>(spikes: map<K, seq<Sample>>, trajs: seq<K>, n: int, nCell: nat, nBins: nat): (e: Option<Error>)
    ensures e.None? <==> Available(spikes, trajs, n) && AllFit(spikes, trajs, n, nCell, nBins)
    ensures e.Some? ==> e.value == UnknownTrajectory || e.value == MissingSample || e.value == ShapeMismatch
    ensures e == Some(UnknownTrajectory) ==> exists t :: 0 <= t < |trajs| && trajs[t] !in spikes
    ensures e == Some(MissingSample) ==> !Available(spikes, trajs, n)
    ensures e == Some(ShapeMismatch) ==> !AllFit(spikes, trajs, n, nCell, nBins)
    ensures e.Some? ==> exists t :: (0 <= t < |trajs| &&
      (forall u :: 0 <= u < t ==> trajs[u] in spikes && SampleFault(spikes[trajs[u]], 0, n, nCell, nBins).None?) &&
      e == (if trajs[t] !in spikes then Some(UnknownTrajectory) else SampleFault(spikes[trajs[t]], 0, n, nCell, nBins)))
  {
    if |trajs| == 0 then None
    else if trajs[0] !in spikes then Some(UnknownTrajectory)
    else match SampleFault(spikes[trajs[0]], 0, n, nCell, nBins)
      case Some(e) => Some(e)
      case None =>
        var rest := SlotFault(spikes, trajs[1..], n, nCell, nBins);
        assert Available(spikes, trajs[1..], n) ==> Available(spikes, trajs, n) by {
          if Available(spikes, trajs[1..], n) {
            forall t | 0 <= t < |trajs| ensures trajs[t] in spikes && |spikes[trajs[t]]| >= n {
              if t > 0 { assert trajs[t] == trajs[1..][t - 1]; }
              else if n > 0 { assert SampleFits(spikes[trajs[0]], n - 1, nCell, nBins); }
            }
          }
        }
        assert AllFit(spikes, trajs[1..], n, nCell, nBins) ==> AllFit(spikes, trajs, n, nCell, nBins) by {
          if AllFit(spikes, trajs[1..], n, nCell, nBins) {
            forall t, s | 0 <= t < |trajs| && 0 <= s < n && trajs[t] in spikes && s < |spikes[trajs[t]]|
              ensures Fits(|spikes[trajs[t]][s]|, nCell, nBins)
            {
              if t > 0 { assert trajs[t] == trajs[1..][t - 1]; }
              else { assert SampleFits(spikes[trajs[0]], s, nCell, nBins); }
            }
          }
        }
        rest
  }

  /** The conditions under which `rate_n_phase` returns instead of raising. */
  predicate Encodable<K>(spikes: map<K, seq<Sample>>, trajs: seq<K>, nSamples: int, binSize: BinSize, dur: nat)
  {
    |trajs| > 0 && trajs[0] in spikes && |spikes[trajs[0]]| > 0 && nSamples >= 0 && Available(spikes, trajs, nSamples) &&
    AllFit(spikes, trajs, nSamples, |spikes[trajs[0]][0]|, NumBins(binSize, dur))
  }

  /** The outputs of every slot, each from its sample as broadcast to
      `nCell` rows. */
  function Slots<K>(spikes: map<K, seq<Sample>>, trajs: seq<K>, nSamples: nat, nCell: nat, binSize: BinSize, dur: nat,
                    cos: real -> real, sin: real -> real): (slots: seq<seq<Slot>>)
    requires Available(spikes, trajs, nSamples) && AllFit(spikes, trajs, nSamples, nCell, NumBins(binSize, dur))
    ensures SlotsShaped(slots, nSamples, |trajs|, nCell, NumBins(binSize, dur), 2 * (nCell * NumBins(binSize, dur)))
    ensures forall s, t :: 0 <= s < nSamples && 0 <= t < |trajs| ==>
      slots[s][t] == SlotOf(Broadcast(spikes[trajs[t]][s], nCell), binSize, dur, cos, sin)
  {
    var slots := seq(nSamples, s requires 0 <= s < nSamples =>
      seq(|trajs|, t requires 0 <= t < |trajs| => SlotOf(Broadcast(spikes[trajs[t]][s], nCell), binSize, dur, cos, sin)));
    forall s, t | 0 <= s < nSamples && 0 <= t < |trajs|
      ensures |Broadcast(spikes[trajs[t]][s], nCell)| == nCell
    {
      assert Fits(|spikes[trajs[t]][s]|, nCell, NumBins(binSize, dur));
    }
    slots
  }

  /** `rate_n_phase`. It raises when the trajectory list is empty, when the
      first trajectory has no sample to take the cell count from, when
      `n_samples` is negative, when a listed trajectory is missing or has
      fewer than `n_samples` samples, or when a sample it reads cannot be
      stored in a slot of `n_cell` cells. Otherwise the count and phase
      tensors have shape `[n_cell, n_bins, n_samples, n_traj]`, the codes
      `[2*n_cell*n_bins, n_samples, n_traj]`, and slot `(s, t)` of each holds
      `_spike_counter`, `_phase_definer` (no fill) and `_code_maker` applied
      to sample `s` of trajectory `trajs[t]`, as broadcast to `n_cell`
      rows. */
  function RateNPhase<K>(spikes: map<K, seq<Sample>>, trajs: seq<K>, nSamples: int, binSize: BinSize, dur: nat,
                         cos: real -> real, sin: real -> real): (r: Result<Tensors>)
    ensures r.Ok? <==> Encodable(spikes, trajs, nSamples, binSize, dur)
    ensures |trajs| == 0 ==> r == Fail(EmptyTrajectoryList)
    ensures |trajs| > 0 && trajs[0] !in spikes ==> r == Fail(UnknownTrajectory)
    ensures |trajs| > 0 && trajs[0] in spikes && |spikes[trajs[0]]| == 0 ==> r == Fail(MissingSample)
    ensures |trajs| > 0 && trajs[0] in spikes && |spikes[trajs[0]]| > 0 && nSamples < 0 ==> r == Fail(NegativeDimension)
    ensures |trajs| > 0 && trajs[0] in spikes && |spikes[trajs[0]]| > 0 && nSamples >= 0 && r.Fail? ==>
      Some(r.error) == SlotFault(spikes, trajs, nSamples, |spikes[trajs[0]][0]|, NumBins(binSize, dur))
    ensures r.Fail? ==> r.error in {EmptyTrajectoryList, UnknownTrajectory, MissingSample, NegativeDimension, ShapeMismatch}
    ensures r.Ok? ==>
      var nCell := |spikes[trajs[0]][0]|;
      var nBins := NumBins(binSize, dur);
      var len := 2 * (nCell * nBins);
      var nT := |trajs|;
      IsTensor4(r.value.counts, nCell, nBins, nSamples, nT) && IsTensor4(r.value.phases, nCell, nBins, nSamples, nT) &&
      IsTensor3(r.value.rate, len, nSamples, nT) && IsTensor3(r.value.phase, len, nSamples, nT) &&
      IsTensor3(r.value.polar, len, nSamples, nT) &&
      forall s, t :: 0 <= s < nSamples && 0 <= t < nT ==>
        var sample := Broadcast(spikes[trajs[t]][s], nCell);
        var codes := SampleCodes(sample, binSize, dur, cos, sin);
        Slice(r.value.counts, nCell, nBins, nSamples, nT, s, t) == SpikeCounts(sample, binSize, dur) &&
        Slice(r.value.phases, nCell, nBins, nSamples, nT, s, t) == PhaseDefiner(sample, false, binSize, dur) &&
        Column(r.value.rate, len, nSamples, nT, s, t) == codes.rate &&
        Column(r.value.phase, len, nSamples, nT, s, t) == codes.phase &&
        Column(r.value.polar, len, nSamples, nT, s, t) == codes.polar
  {
    if |trajs| == 0 then Fail(EmptyTrajectoryList)
    else if trajs[0] !in spikes then Fail(UnknownTrajectory)
    else if |spikes[trajs[0]]| == 0 then Fail(MissingSample)
    else if nSamples < 0 then Fail(NegativeDimension)
    else
      var nCell := |spikes[trajs[0]][0]|;
      var nBins := NumBins(binSize, dur);
      match SlotFault(spikes, trajs, nSamples, nCell, nBins)
      case Some(e) => Fail(e)
      case None =>
        var slots := Slots(spikes, trajs, nSamples, nCell, binSize, dur, cos, sin);
        Ok(Assemble(slots, nSamples, |trajs|, nCell, nBins, 2 * (nCell * nBins)))
  }
}

=== FILE: binning.dfy ===
/** The binning engine: `_spike_counter` and `_phase_definer` turn the spike
    trains of one sample (one train per cell) into a cell x bin count matrix
    and a cell x bin mean-phase matrix. Spike times are exact reals. */
module Binning {
  import opened Matrix

  /** Spike times of one cell, in milliseconds. */
  type Train = seq<real>

  /** One sample: a spike train per cell. */
  type Sample = seq<Train>

  /** A bin size in milliseconds; the source divides by it. */
  type BinSize = b: int | b > 0 witness 1

  /** `np.pi`, written out to the digits numpy prints. */
  const Pi: real := 3.141592653589793

  /** `int(dur_ms / bin_size_ms)`: the number of whole bins in the duration;
      a partial bin at the end is dropped. */
  function NumBins(binSize: BinSize, dur: nat): (n: nat)
    ensures n * binSize <= dur < (n + 1) * binSize
  {
    dur / binSize
  }

  /** Bin `i` is the open interval `(b*i, b*(i+1))`: a spike on either edge is outside it. */
  predicate InBin(t: real, binSize: BinSize, i: int)
  {
    (binSize * i) as real < t < (binSize * (i + 1)) as real
  }

  /** The spikes of `train` strictly inside bin `i`, in their order (`val[mask]`). */
  function BinSpikes(train: Train, binSize: BinSize, i: int): (sel: Train)
    ensures |sel| <= |train|
    ensures forall k :: 0 <= k < |sel| ==> InBin(sel[k], binSize, i)
    ensures forall j :: 0 <= j < |train| && InBin(train[j], binSize, i) ==> train[j] in sel
    ensures multiset(sel) <= multiset(train)
  {
    if |train| == 0 then []
    else
      var last := train[|train| - 1];
      assert train == train[..|train| - 1] + [last];
      BinSpikes(train[..|train| - 1], binSize, i) + (if InBin(last, binSize, i) then [last] else [])
  }

  /** The number of spikes strictly inside bin `i` (the sum of the boolean mask). */
  function BinCount(train: Train, binSize: BinSize, i: int): (c: nat)
    ensures c <= |train|
    ensures c == 0 <==> forall j :: 0 <= j < |train| ==> !InBin(train[j], binSize, i)
    ensures c == |train| <==> forall j :: 0 <= j < |train| ==> InBin(train[j], binSize, i)
  {
    if |train| == 0 then 0
    else
      var init := train[..|train| - 1];
      assert forall j :: 0 <= j < |init| ==> init[j] == train[j];
      BinCount(init, binSize, i) + (if InBin(train[|train| - 1], binSize, i) then 1 else 0)
  }

  /** The indices of the spikes that lie in bin `i`. */
  ghost function BinIndices(train: Train, binSize: BinSize, i: int): set<int>
  {
    set j | 0 <= j < |train| && InBin(train[j], binSize, i)
  }

  /** The count is the number of spike indices falling in the bin. */
  lemma {:induction false} BinCountIsIndexCount(train: Train, binSize: BinSize, i: int)
    ensures BinCount(train, binSize, i) == |BinIndices(train, binSize, i)|
    decreases |train|
  {
    if |train| > 0 {
      var n := |train| - 1;
      var init := train[..n];
      BinCountIsIndexCount(init, binSize, i);
      if InBin(train[n], binSize, i) {
        assert BinIndices(train, binSize, i) == BinIndices(init, binSize, i) + {n};
      } else {
        assert BinIndices(train, binSize, i) == BinIndices(init, binSize, i);
      }
    }
  }

  /** The counter and the phase definer agree on how many spikes a bin holds. */
  lemma {:induction false} BinCountIsSelectionSize(train: Train, binSize: BinSize, i: int)
    ensures BinCount(train, binSize, i) == |BinSpikes(train, binSize, i)|
    decreases |train|
  {
    if |train| > 0 {
      BinCountIsSelectionSize(train[..|train| - 1], binSize, i);
    }
  }

  /** A spike lies in bin `i` exactly when `floor(t / b) == i` and `t` is not `b*i`. */
  lemma BinOfSpike(t: real, binSize: BinSize, i: int)
    ensures InBin(t, binSize, i) <==> (t / binSize as real).Floor == i && t != (binSize * i) as real
  {
    if InBin(t, binSize, i) {
      FloorOfBinned(t, binSize, i);
    }
    if (t / binSize as real).Floor == i && t != (binSize * i) as real {
      BinnedOfFloor(t, binSize, i);
    }
  }

  lemma FloorOfBinned(t: real, binSize: BinSize, i: int)
    requires InBin(t, binSize, i)
    ensures (t / binSize as real).Floor == i && t != (binSize * i) as real
  {
    var b := binSize as real;
    var q := t / b;
    assert q * b == t;
    IntMulToReal(binSize, i);
    IntMulToReal(binSize, i + 1);
    assert (i as real) * b < q * b;
    assert i as real < q;
    assert q * b < (i + 1) as real * b;
    assert q < (i + 1) as real;
  }

  lemma BinnedOfFloor(t: real, binSize: BinSize, i: int)
    requires (t / binSize as real).Floor == i && t != (binSize * i) as real
    ensures InBin(t, binSize, i)
  {
    var b := binSize as real;
    var q := t / b;
    assert q * b == t;
    IntMulToReal(binSize, i);
    IntMulToReal(binSize, i + 1);
    var lo := (i as real) * b;
    assert i as real <= q < (i + 1) as real;
    MulNonNegative(q - i as real, b);
    assert (q - i as real) * b == t - lo;
    assert lo < t;
    assert lo == (binSize * i) as real;
    MulBelow(q, b, (i + 1) as real);
    assert t < (i + 1) as real * b;
    assert (i + 1) as real * b == (binSize * (i + 1)) as real;
  }

  lemma MulNonNegative(x: real, y: real)
    requires x >= 0.0 && y > 0.0
    ensures x * y >= 0.0
  {
  }

  // ---------------------------------------------------------------------
  // Which spikes are counted at all

  /** A spike that falls in one of the first `nBins` bins: after 0, before
      `nBins*b`, and not on a multiple of `b`. */
  predicate Counted(t: real, binSize: BinSize, nBins: nat)
  {
    0.0 < t < (nBins * binSize) as real && t != ((t / binSize as real).Floor * binSize) as real
  }

  lemma EdgeFloor(binSize: BinSize, i: int)
    ensures ((binSize * i) as real / binSize as real).Floor == i
  {
    assert (binSize * i) as real / binSize as real == i as real;
  }

  /** Growing the range by one bin adds exactly the spikes of that bin. */
  lemma CountedStep(t: real, binSize: BinSize, k: nat)
    requires k >= 1
    ensures Counted(t, binSize, k) <==> Counted(t, binSize, k - 1) || InBin(t, binSize, k - 1)
    ensures !(Counted(t, binSize, k - 1) && InBin(t, binSize, k - 1))
  {
    BinOfSpike(t, binSize, k - 1);
    EdgeFloor(binSize, k - 1);
    assert (binSize * (k - 1)) as real < (k * binSize) as real;
    assert (binSize * k) == k * binSize;
    assert (binSize * (k - 1)) == (k - 1) * binSize;
  }

  /** A spike is counted exactly when some bin holds it. */
  lemma {:induction false} CountedIffInSomeBin(t: real, binSize: BinSize, nBins: nat)
    ensures Counted(t, binSize, nBins) <==> exists i :: 0 <= i < nBins && InBin(t, binSize, i)
    decreases nBins
  {
    if nBins > 0 {
      CountedIffInSomeBin(t, binSize, nBins - 1);
      CountedStep(t, binSize, nBins);
    }
  }

  /** The number of spikes of `train` counted in some bin. */
  function CountedCount(train: Train, binSize: BinSize, nBins: nat): (n: nat)
    ensures n <= |train|
  {
    if |train| == 0 then 0
    else CountedCount(train[..|train| - 1], binSize, nBins) + (if Counted(train[|train| - 1], binSize, nBins) then 1 else 0)
  }

  lemma {:induction false} CountedCountStep(train: Train, binSize: BinSize, k: nat)
    requires k >= 1
    ensures CountedCount(train, binSize, k) == CountedCount(train, binSize, k - 1) + BinCount(train, binSize, k - 1)
    decreases |train|
  {
    if |train| > 0 {
      CountedCountStep(train[..|train| - 1], binSize, k);
      CountedStep(train[|train| - 1], binSize, k);
    }
  }

  lemma {:induction false} NothingCountedInNoBins(train: Train, binSize: BinSize)
    ensures CountedCount(train, binSize, 0) == 0
    decreases |train|
  {
    if |train| > 0 {
      NothingCountedInNoBins(train[..|train| - 1], binSize);
    }
  }

  /** The sum of the entries of a count row. */
  function Total(xs: seq<nat>): nat
  {
    if |xs| == 0 then 0 else Total(xs[..|xs| - 1]) + xs[|xs| - 1]
  }

  /** The counts of the first `k` bins of one train. */
  function BinRow(train: Train, binSize: BinSize, k: nat): (row: seq<nat>)
    ensures |row| == k
  {
    seq(k, i => BinCount(train, binSize, i))
  }

  /** Summing the first `k` bins of a train counts each counted spike once. */
  lemma {:induction false} TotalOfBins(train: Train, binSize: BinSize, k: nat)
    ensures Total(BinRow(train, binSize, k)) == CountedCount(train, binSize, k)
    decreases k
  {
    if k > 0 {
      var row := BinRow(train, binSize, k);
      assert row[..k - 1] == BinRow(train, binSize, k - 1);
      assert Total(row) == Total(row[..k - 1]) + row[k - 1];
      assert row[k - 1] == BinCount(train, binSize, k - 1);
      TotalOfBins(train, binSize, k - 1);
      CountedCountStep(train, binSize, k);
    } else {
      NothingCountedInNoBins(train, binSize);
    }
  }

  // ---------------------------------------------------------------------
  // _spike_counter

  lemma SelectionSizes(sample: Sample, binSize: BinSize, nBins: nat)
    ensures forall c, i :: 0 <= c < |sample| && 0 <= i < nBins ==>
      BinCount(sample[c], binSize, i) == |BinSpikes(sample[c], binSize, i)|
  {
    forall c, i | 0 <= c < |sample| && 0 <= i < nBins {
      BinCountIsSelectionSize(sample[c], binSize, i);
    }
  }

  /** `_spike_counter`: a cell x bin matrix holding, for each cell and bin, the
      number of that cell's spikes strictly inside the bin. */
  function SpikeCounts(sample: Sample, binSize: BinSize, dur: nat): (counts: seq<seq<nat>>)
    ensures IsMatrix(counts, |sample|, NumBins(binSize, dur))
    ensures forall c, i :: 0 <= c < |sample| && 0 <= i < NumBins(binSize, dur) ==>
      counts[c][i] == |BinSpikes(sample[c], binSize, i)|
  {
    var nBins := NumBins(binSize, dur);
    SelectionSizes(sample, binSize, nBins);
    seq(|sample|, c requires 0 <= c < |sample| => BinRow(sample[c], binSize, nBins))
  }

  /** Bins are disjoint: a cell's counts add up to the number of its spikes that
      lie after 0, before `n_bins*b` and off every multiple of `b`, so to at
      most its number of spikes. */
  lemma CountsSum(sample: Sample, binSize: BinSize, dur: nat, c: nat)
    requires c < |sample|
    ensures Total(SpikeCounts(sample, binSize, dur)[c]) == CountedCount(sample[c], binSize, NumBins(binSize, dur))
    ensures Total(SpikeCounts(sample, binSize, dur)[c]) <= |sample[c]|
  {
    var nBins := NumBins(binSize, dur);
    TotalOfBins(sample[c], binSize, nBins);
  }

  /** A spike that is not counted is in no bin at all; one that is counted is in
      exactly one bin. */
  lemma CountedSpikeHasOneBin(t: real, binSize: BinSize, nBins: nat)
    ensures !Counted(t, binSize, nBins) ==> forall i :: 0 <= i < nBins ==> !InBin(t, binSize, i)
    ensures Counted(t, binSize, nBins) ==> var i := (t / binSize as real).Floor;
      0 <= i < nBins && InBin(t, binSize, i) &&
      forall j :: 0 <= j < nBins && InBin(t, binSize, j) ==> j == i
  {
    CountedIffInSomeBin(t, binSize, nBins);
    forall j | 0 <= j < nBins {
      BinOfSpike(t, binSize, j);
    }
  }

  // ---------------------------------------------------------------------
  // _phase_definer

  lemma MulBelow(x: real, y: real, z: real)
    requires y > 0.0 && x < z
    ensures x * y < z * y
  {
    assert (z - x) * y > 0.0;
  }

  lemma FloorBounds(t: real, binSize: BinSize)
    ensures var f := (t / binSize as real).Floor;
      (f * binSize) as real <= t < ((f + 1) * binSize) as real
  {
    var b := binSize as real;
    var f := (t / b).Floor;
    assert t / b < (f + 1) as real;
    assert (t / b) * b == t;
    MulBelow(t / b, b, (f + 1) as real);
    assert t < (f + 1) as real * b;
    MulNonNegative(t / b - f as real, b);
    assert f as real * b <= t;
    IntMulToReal(f, binSize);
    IntMulToReal(f + 1, binSize);
    assert ((f + 1) * binSize) as real == (f + 1) as real * b;
  }

  lemma IntMulToReal(x: int, y: int)
    ensures (x * y) as real == x as real * y as real
  {
  }

  /** Python's `t % b` for a float and a positive integer: `t - b*floor(t/b)`. */
  function FloatMod(t: real, binSize: BinSize): (r: real)
    ensures 0.0 <= r < binSize as real
  {
    var b := binSize as real;
    var f := (t / b).Floor;
    FloorBounds(t, binSize);
    t - (f * binSize) as real
  }

  /** `t % b / b * 2 * np.pi`: the position of a spike within its bin, as an angle. */
  function SpikePhase(t: real, binSize: BinSize): (phi: real)
    ensures 0.0 <= phi < 2.0 * Pi
  {
    var x := FloatMod(t, binSize) / binSize as real;
    assert 0.0 <= x < 1.0 by {
      MulBelow(x, binSize as real, 1.0);
    }
    x * 2.0 * Pi
  }

  /** A spike inside bin `i` sits at `t - b*i` within the bin, so its phase is
      strictly between 0 and 2*pi. */
  lemma PhaseInsideBin(t: real, binSize: BinSize, i: int)
    requires InBin(t, binSize, i)
    ensures FloatMod(t, binSize) == t - (binSize * i) as real
    ensures 0.0 < SpikePhase(t, binSize) < 2.0 * Pi
  {
    BinOfSpike(t, binSize, i);
    assert (i * binSize) == binSize * i;
    var x := FloatMod(t, binSize) / binSize as real;
    assert x > 0.0;
    assert x * 2.0 * Pi > 0.0;
  }

  function SumPhases(spikes: Train, binSize: BinSize): real
  {
    if |spikes| == 0 then 0.0
    else SumPhases(spikes[..|spikes| - 1], binSize) + SpikePhase(spikes[|spikes| - 1], binSize)
  }

  /** The mean phase of a non-empty list of spikes. */
  function MeanPhase(spikes: Train, binSize: BinSize): real
    requires |spikes| > 0
  {
    SumPhases(spikes, binSize) / |spikes| as real
  }

  lemma {:induction false} SumPhasesInBin(spikes: Train, binSize: BinSize, i: int)
    requires forall k :: 0 <= k < |spikes| ==> InBin(spikes[k], binSize, i)
    ensures |spikes| > 0 ==> 0.0 < SumPhases(spikes, binSize) < 2.0 * Pi * |spikes| as real
    decreases |spikes|
  {
    if |spikes| > 0 {
      SumPhasesInBin(spikes[..|spikes| - 1], binSize, i);
      PhaseInsideBin(spikes[|spikes| - 1], binSize, i);
    }
  }

  /** `0 < s < hi*n` puts the mean `s/n` strictly between 0 and `hi`. */
  lemma MeanBelow(s: real, n: nat, hi: real)
    requires n > 0 && 0.0 < s < hi * n as real
    ensures 0.0 < s / n as real < hi
  {
    var m := s / n as real;
    assert m * n as real == s;
    if m >= hi {
      MulNonNegative(m - hi, n as real);
    }
    if m <= 0.0 {
      MulNonNegative(0.0 - m, n as real);
    }
  }

  /** The mean phase of the spikes of one bin lies strictly between 0 and 2*pi. */
  lemma MeanPhaseInBin(spikes: Train, binSize: BinSize, i: int)
    requires |spikes| > 0
    requires forall k :: 0 <= k < |spikes| ==> InBin(spikes[k], binSize, i)
    ensures 0.0 < MeanPhase(spikes, binSize) < 2.0 * Pi
  {
    SumPhasesInBin(spikes, binSize, i);
    MeanBelow(SumPhases(spikes, binSize), |spikes|, 2.0 * Pi);
  }

  /** One entry of the phase matrix before any filling: 0 for an empty bin,
      the mean phase of the bin's spikes otherwise. */
  function BinPhase(train: Train, binSize: BinSize, i: int): real
  {
    var sel := BinSpikes(train, binSize, i);
    if |sel| == 0 then 0.0 else MeanPhase(sel, binSize)
  }

  function RawPhases(sample: Sample, binSize: BinSize, nBins: nat): seq<seq<real>>
  {
    seq(|sample|, c requires 0 <= c < |sample| => seq(nBins, i => BinPhase(sample[c], binSize, i)))
  }

  lemma RawPhasesFacts(sample: Sample, binSize: BinSize, nBins: nat)
    ensures IsMatrix(RawPhases(sample, binSize, nBins), |sample|, nBins)
    ensures forall c, i :: 0 <= c < |sample| && 0 <= i < nBins ==>
      var p := RawPhases(sample, binSize, nBins)[c][i];
      (p != 0.0 <==> BinCount(sample[c], binSize, i) != 0) && 0.0 <= p < 2.0 * Pi
  {
    var m := RawPhases(sample, binSize, nBins);
    forall c, i | 0 <= c < |sample| && 0 <= i < nBins
      ensures (m[c][i] != 0.0 <==> BinCount(sample[c], binSize, i) != 0) && 0.0 <= m[c][i] < 2.0 * Pi
    {
      BinCountIsSelectionSize(sample[c], binSize, i);
      var sel := BinSpikes(sample[c], binSize, i);
      if |sel| > 0 {
        MeanPhaseInBin(sel, binSize, i);
      }
    }
  }

  // ---------------------------------------------------------------------
  // The nan_fill option

  predicate HasNonzero(m: seq<seq<real>>)
  {
    exists r, c :: 0 <= r < |m| && 0 <= c < |m[r]| && m[r][c] != 0.0
  }

  /** The sum of all entries, zeros included. */
  function Sum(xs: seq<real>): real
  {
    if |xs| == 0 then 0.0 else Sum(xs[..|xs| - 1]) + xs[|xs| - 1]
  }

  function NonzeroCount(xs: seq<real>): (n: nat)
    ensures n <= |xs|
  {
    if |xs| == 0 then 0 else NonzeroCount(xs[..|xs| - 1]) + (if xs[|xs| - 1] != 0.0 then 1 else 0)
  }

  /** `np.mean(x[x != 0])`: zeros add nothing to the sum, so the plain sum
      divided by the number of nonzero entries is that mean. */
  function NonzeroMean(xs: seq<real>): real
    requires NonzeroCount(xs) > 0
  {
    Sum(xs) / NonzeroCount(xs) as real
  }

  lemma {:induction false} NonzeroPresent(xs: seq<real>, x: real)
    requires x in xs && x != 0.0
    ensures NonzeroCount(xs) > 0
    decreases |xs|
  {
    if xs[|xs| - 1] != x {
      assert x in xs[..|xs| - 1];
      NonzeroPresent(xs[..|xs| - 1], x);
    }
  }

  /** Entries that are angles: in `[0, 2*pi)`. */
  predicate AllAngles(xs: seq<real>)
  {
    forall k :: 0 <= k < |xs| ==> 0.0 <= xs[k] < 2.0 * Pi
  }

  lemma {:induction false} SumBounds(xs: seq<real>)
    requires AllAngles(xs)
    ensures NonzeroCount(xs) > 0 ==> 0.0 < Sum(xs) < 2.0 * Pi * NonzeroCount(xs) as real
    ensures NonzeroCount(xs) == 0 ==> Sum(xs) == 0.0
    decreases |xs|
  {
    if |xs| > 0 {
      SumBounds(xs[..|xs| - 1]);
    }
  }

  /** The mean of the nonzero entries of a list of angles is a nonzero angle. */
  lemma NonzeroMeanBounds(xs: seq<real>)
    requires NonzeroCount(xs) > 0
    requires AllAngles(xs)
    ensures 0.0 < NonzeroMean(xs) < 2.0 * Pi
  {
    SumBounds(xs);
    MeanBelow(Sum(xs), NonzeroCount(xs), 2.0 * Pi);
  }

  /** `phases[phases == 0] = np.mean(phases[phases != 0])`: every zero entry
      becomes the mean of the nonzero entries of the whole matrix, every
      nonzero entry is kept. */
  function FillEmpty(m: seq<seq<real>>): (r: seq<seq<real>>)
    requires HasNonzero(m)
    ensures |r| == |m| && forall a :: 0 <= a < |m| ==> |r[a]| == |m[a]|
    ensures NonzeroCount(Flatten(m)) > 0
    ensures forall a, c :: 0 <= a < |m| && 0 <= c < |m[a]| && m[a][c] != 0.0 ==> r[a][c] == m[a][c]
    ensures forall a, c :: 0 <= a < |m| && 0 <= c < |m[a]| && m[a][c] == 0.0 ==> r[a][c] == NonzeroMean(Flatten(m))
  {
    var a0, c0 :| 0 <= a0 < |m| && 0 <= c0 < |m[a0]| && m[a0][c0] != 0.0;
    EntryInFlatten(m, a0, c0);
    NonzeroPresent(Flatten(m), m[a0][c0]);
    var mean := NonzeroMean(Flatten(m));
    seq(|m|, a requires 0 <= a < |m| => seq(|m[a]|, c requires 0 <= c < |m[a]| => if m[a][c] == 0.0 then mean else m[a][c]))
  }

  /** After filling, a matrix of angles in `[0, 2*pi)` has every entry in
      `(0, 2*pi)`: no zero is left. */
  lemma FillLeavesNoZero(m: seq<seq<real>>)
    requires HasNonzero(m)
    requires forall a, c :: 0 <= a < |m| && 0 <= c < |m[a]| ==> 0.0 <= m[a][c] < 2.0 * Pi
    ensures forall a, c :: 0 <= a < |m| && 0 <= c < |m[a]| ==> 0.0 < FillEmpty(m)[a][c] < 2.0 * Pi
  {
    var r := FillEmpty(m);
    var f := Flatten(m);
    forall k | 0 <= k < |f|
      ensures 0.0 <= f[k] < 2.0 * Pi
    {
      FlattenedEntry(m, k);
    }
    NonzeroMeanBounds(f);
  }

  lemma {:induction false} FlattenedEntry<T>(m: seq<seq<T>>, k: nat)
    requires k < |Flatten(m)|
    ensures exists a, c :: 0 <= a < |m| && 0 <= c < |m[a]| && Flatten(m)[k] == m[a][c]
    decreases |m|
  {
    if k < |m[0]| {
      assert Flatten(m)[k] == m[0][k];
    } else {
      FlattenedEntry(m[1..], k - |m[0]|);
      var a, c :| 0 <= a < |m[1..]| && 0 <= c < |m[1..][a]| && Flatten(m[1..])[k - |m[0]|] == m[1..][a][c];
      assert Flatten(m)[k] == m[a + 1][c];
    }
  }

  /** Some spike of the sample is counted in some bin. */
  predicate SomeSpikeCounted(sample: Sample, binSize: BinSize, nBins: nat)
  {
    exists c, j :: 0 <= c < |sample| && 0 <= j < |sample[c]| && Counted(sample[c][j], binSize, nBins)
  }

  /** `_phase_definer`: a cell x bin matrix of mean within-bin phases. An empty
      bin holds 0, or with `nan_fill` the mean of all nonzero phases of the
      matrix; a non-empty bin holds the mean phase of its spikes, which lies
      strictly between 0 and 2*pi. `nan_fill` needs at least one counted spike:
      otherwise numpy's mean of nothing is NaN. */
  function PhaseDefiner(sample: Sample, nanFill: bool, binSize: BinSize, dur: nat): (phases: seq<seq<real>>)
    requires nanFill ==> SomeSpikeCounted(sample, binSize, NumBins(binSize, dur))
    ensures nanFill ==> (HasNonzero(PhaseDefiner(sample, false, binSize, dur)) &&
      phases == FillEmpty(PhaseDefiner(sample, false, binSize, dur)))
    ensures IsMatrix(phases, |sample|, NumBins(binSize, dur))
    ensures forall c, i :: 0 <= c < |sample| && 0 <= i < NumBins(binSize, dur) && BinCount(sample[c], binSize, i) != 0 ==>
      0.0 < phases[c][i] < 2.0 * Pi && |BinSpikes(sample[c], binSize, i)| > 0 &&
      phases[c][i] == MeanPhase(BinSpikes(sample[c], binSize, i), binSize)
    ensures !nanFill ==> forall c, i :: 0 <= c < |sample| && 0 <= i < NumBins(binSize, dur) ==>
      (phases[c][i] == 0.0 <==> BinCount(sample[c], binSize, i) == 0)
    ensures nanFill ==> forall c, i :: 0 <= c < |sample| && 0 <= i < NumBins(binSize, dur) ==>
      0.0 < phases[c][i] < 2.0 * Pi
    decreases if nanFill then 1 else 0
  {
    var nBins := NumBins(binSize, dur);
    if nanFill then
      FilledPhasesMeaning(sample, binSize, nBins);
      FillEmpty(RawPhases(sample, binSize, nBins))
    else
      RawPhasesMeaning(sample, binSize, nBins);
      RawPhases(sample, binSize, nBins)
  }

  /** The unfilled matrix: the mean phase of a non-empty bin, 0 exactly for an empty one. */
  lemma RawPhasesMeaning(sample: Sample, binSize: BinSize, nBins: nat)
    ensures var raw := RawPhases(sample, binSize, nBins);
      IsMatrix(raw, |sample|, nBins) &&
      (forall c, i :: 0 <= c < |sample| && 0 <= i < nBins && BinCount(sample[c], binSize, i) != 0 ==>
        0.0 < raw[c][i] < 2.0 * Pi && |BinSpikes(sample[c], binSize, i)| > 0 &&
        raw[c][i] == MeanPhase(BinSpikes(sample[c], binSize, i), binSize)) &&
      (forall c, i :: 0 <= c < |sample| && 0 <= i < nBins ==>
        (raw[c][i] == 0.0 <==> BinCount(sample[c], binSize, i) == 0))
  {
    RawPhasesFacts(sample, binSize, nBins);
    SelectionSizes(sample, binSize, nBins);
  }

  /** The filled matrix keeps the phases of non-empty bins and has no zero left. */
  lemma FilledPhasesMeaning(sample: Sample, binSize: BinSize, nBins: nat)
    requires SomeSpikeCounted(sample, binSize, nBins)
    ensures HasNonzero(RawPhases(sample, binSize, nBins))
    ensures var raw := RawPhases(sample, binSize, nBins);
      var filled := FillEmpty(raw);
      IsMatrix(filled, |sample|, nBins) &&
      (forall c, i :: 0 <= c < |sample| && 0 <= i < nBins && BinCount(sample[c], binSize, i) != 0 ==>
        0.0 < filled[c][i] < 2.0 * Pi && |BinSpikes(sample[c], binSize, i)| > 0 &&
        filled[c][i] == MeanPhase(BinSpikes(sample[c], binSize, i), binSize)) &&
      (forall c, i :: 0 <= c < |sample| && 0 <= i < nBins ==> 0.0 < filled[c][i] < 2.0 * Pi)
  {
    var raw := RawPhases(sample, binSize, nBins);
    RawPhasesMeaning(sample, binSize, nBins);
    UnfilledPhases(sample, binSize, nBins);
    FillLeavesNoZero(raw);
  }

  /** Without filling, a sample with a counted spike has a nonzero phase, and
      every phase lies in `[0, 2*pi)`: what filling needs. */
  lemma UnfilledPhases(sample: Sample, binSize: BinSize, nBins: nat)
    requires SomeSpikeCounted(sample, binSize, nBins)
    ensures var raw := RawPhases(sample, binSize, nBins);
      HasNonzero(raw) && forall a, k :: 0 <= a < |raw| && 0 <= k < |raw[a]| ==> 0.0 <= raw[a][k] < 2.0 * Pi
  {
    var raw := RawPhases(sample, binSize, nBins);
    RawPhasesFacts(sample, binSize, nBins);
    var c, j :| 0 <= c < |sample| && 0 <= j < |sample[c]| && Counted(sample[c][j], binSize, nBins);
    CountedSpikeHasOneBin(sample[c][j], binSize, nBins);
    var i := (sample[c][j] / binSize as real).Floor;
    assert BinCount(sample[c], binSize, i) != 0;
    assert raw[c][i] != 0.0;
  }
}

=== FILE: coding.dfy ===
/** The code encoder, `_code_maker`: the count and phase matrices of one
    sample, flattened in C order, become three codes of length `2*N`
    (`N` = cells x bins), each all x (cosine) parts followed by all y (sine)
    parts. The trigonometric functions are parameters: nothing here depends
    on their values. */
module Coding {
  import opened Matrix
  import opened Binning

  /** The rate, phase and polar codes of one sample. */
  datatype Codes = Codes(rate: seq<real>, phase: seq<real>, polar: seq<real>)

  /** `phase_of_rate_code=np.pi / 4`: the fixed angle of the rate code. */
  const DefaultRateAngle: real := Pi / 4.0

  /** `rate_in_phase=3`: the magnitude of every active bin in the phase code. */
  const DefaultSaturation: real := 3.0

  /** The number of columns of a matrix (0 for a matrix without rows). */
  function Cols<T>(m: seq<seq<T>>): nat
  {
    if |m| == 0 then 0 else |m[0]|
  }

  /** The count and phase matrices have one common rectangular shape. */
  predicate SameShape(counts: seq<seq<nat>>, phases: seq<seq<real>>)
  {
    IsMatrix(counts, |counts|, Cols(counts)) && IsMatrix(phases, |counts|, Cols(counts))
  }

  /** `cts_for_phase[cts_for_phase != 0] = rate_in_phase`. */
  function Saturate(counts: seq<nat>, saturation: real): (r: seq<real>)
    ensures |r| == |counts|
    ensures forall k :: 0 <= k < |counts| ==> r[k] == if counts[k] == 0 then 0.0 else saturation
  {
    seq(|counts|, k requires 0 <= k < |counts| => if counts[k] == 0 then 0.0 else saturation)
  }

  /** `np.concatenate((m * cos(a), m * sin(a)))` for magnitudes `m` and angles `a`. */
  function Project(mags: seq<real>, angles: seq<real>, cos: real -> real, sin: real -> real): (r: seq<real>)
    requires |mags| == |angles|
    ensures |r| == 2 * |mags|
    ensures forall k :: 0 <= k < |mags| ==>
      r[k] == mags[k] * cos(angles[k]) && r[|mags| + k] == mags[k] * sin(angles[k])
  {
    seq(|mags|, k requires 0 <= k < |mags| => mags[k] * cos(angles[k]))
      + seq(|mags|, k requires 0 <= k < |mags| => mags[k] * sin(angles[k]))
  }

  function AsReals(xs: seq<nat>): (r: seq<real>)
    ensures |r| == |xs| && forall k :: 0 <= k < |xs| ==> r[k] == xs[k] as real
  {
    seq(|xs|, k requires 0 <= k < |xs| => xs[k] as real)
  }

  /** `_code_maker`. With `N` = cells x bins and `k` the C-order position of
      cell `c`, bin `i`:
      - the rate code holds `count * cos(angle)` at `k` and `count * sin(angle)` at `N + k`;
      - the phase code holds `sat * cos(phase)` and `sat * sin(phase)`, or 0 for an empty bin;
      - the polar code holds `count * cos(phase)` and `count * sin(phase)`. */
  function CodeMaker(counts: seq<seq<nat>>, phases: seq<seq<real>>, rateAngle: real, saturation: real,
                     cos: real -> real, sin: real -> real): (codes: Codes)
    requires SameShape(counts, phases)
    ensures var n := |counts| * Cols(counts);
      |codes.rate| == 2 * n && |codes.phase| == 2 * n && |codes.polar| == 2 * n
    ensures |Flatten(counts)| == |counts| * Cols(counts)
    ensures forall c, i :: 0 <= c < |counts| && 0 <= i < Cols(counts) ==>
      LaidOut(codes, counts, phases, rateAngle, saturation, cos, sin, c, i)
  {
    EncodeLayout(counts, phases, rateAngle, saturation, cos, sin);
    Encode(counts, phases, rateAngle, saturation, cos, sin)
  }

  function Encode(counts: seq<seq<nat>>, phases: seq<seq<real>>, rateAngle: real, saturation: real,
                  cos: real -> real, sin: real -> real): Codes
    requires SameShape(counts, phases)
  {
    FlattenSameShape(counts, phases);
    var fc := Flatten(counts);
    var fp := Flatten(phases);
    var angle := seq(|fc|, _ => rateAngle);
    Codes(Project(AsReals(fc), angle, cos, sin),
          Project(Saturate(fc, saturation), fp, cos, sin),
          Project(AsReals(fc), fp, cos, sin))
  }

  /** Where cell `c`, bin `i` lands in the three codes: at its C-order
      position `k` (x part) and at `N + k` (y part), `N` being the number of
      entries of the count matrix. */
  predicate LaidOut(codes: Codes, counts: seq<seq<nat>>, phases: seq<seq<real>>, rateAngle: real, saturation: real,
                    cos: real -> real, sin: real -> real, c: nat, i: nat)
    requires SameShape(counts, phases) && c < |counts| && i < Cols(counts)
  {
    var n := |Flatten(counts)|;
    var k := RowMajor(c, i, Cols(counts));
    k < n && |codes.rate| == 2 * n && |codes.phase| == 2 * n && |codes.polar| == 2 * n &&
    Placed(codes.rate, n, k, counts[c][i] as real, rateAngle, cos, sin) &&
    Placed(codes.phase, n, k, if counts[c][i] == 0 then 0.0 else saturation, phases[c][i], cos, sin) &&
    Placed(codes.polar, n, k, counts[c][i] as real, phases[c][i], cos, sin)
  }

  /** `code` holds magnitude `m` at angle `a` for position `k`: the x part at
      `k`, the y part at `n + k`. */
  predicate Placed(code: seq<real>, n: nat, k: nat, m: real, a: real, cos: real -> real, sin: real -> real)
  {
    k < n && |code| == 2 * n && code[k] == m * cos(a) && code[n + k] == m * sin(a)
  }

  lemma ProjectPlaced(mags: seq<real>, angles: seq<real>, cos: real -> real, sin: real -> real, k: nat)
    requires |mags| == |angles| && k < |mags|
    ensures Placed(Project(mags, angles, cos, sin), |mags|, k, mags[k], angles[k], cos, sin)
  {
  }

  lemma EncodeAt(counts: seq<seq<nat>>, phases: seq<seq<real>>, rateAngle: real, saturation: real,
                 cos: real -> real, sin: real -> real, c: nat, i: nat)
    requires SameShape(counts, phases) && c < |counts| && i < Cols(counts)
    ensures LaidOut(Encode(counts, phases, rateAngle, saturation, cos, sin), counts, phases, rateAngle, saturation, cos, sin, c, i)
  {
    var rows := |counts|;
    var cols := Cols(counts);
    FlattenSameShape(counts, phases);
    FlattenAt(counts, rows, cols, c, i);
    FlattenAt(phases, rows, cols, c, i);
    var k := RowMajor(c, i, cols);
    var fc := Flatten(counts);
    var fp := Flatten(phases);
    var n := |fc|;
    var x := AsReals(fc);
    var sat := Saturate(fc, saturation);
    var angle := seq(n, _ => rateAngle);
    ProjectPlaced(x, angle, cos, sin, k);
    ProjectPlaced(sat, fp, cos, sin, k);
    ProjectPlaced(x, fp, cos, sin, k);
  }

  lemma EncodeLayout(counts: seq<seq<nat>>, phases: seq<seq<real>>, rateAngle: real, saturation: real,
                     cos: real -> real, sin: real -> real)
    requires SameShape(counts, phases)
    ensures var codes := Encode(counts, phases, rateAngle, saturation, cos, sin);
      var n := |counts| * Cols(counts);
      |codes.rate| == 2 * n && |codes.phase| == 2 * n && |codes.polar| == 2 * n
    ensures |Flatten(counts)| == |counts| * Cols(counts)
    ensures forall c, i :: 0 <= c < |counts| && 0 <= i < Cols(counts) ==>
      LaidOut(Encode(counts, phases, rateAngle, saturation, cos, sin), counts, phases, rateAngle, saturation, cos, sin, c, i)
  {
    FlattenLength(counts, |counts|, Cols(counts));
    forall c, i | 0 <= c < |counts| && 0 <= i < Cols(counts) {
      EncodeAt(counts, phases, rateAngle, saturation, cos, sin, c, i);
    }
  }

  /** An empty bin contributes 0 to both halves of all three codes. */
  lemma EmptyBinsAreZero(counts: seq<seq<nat>>, phases: seq<seq<real>>, rateAngle: real, saturation: real,
                         cos: real -> real, sin: real -> real, c: nat, i: nat)
    requires SameShape(counts, phases)
    requires c < |counts| && i < Cols(counts) && counts[c][i] == 0
    ensures var codes := CodeMaker(counts, phases, rateAngle, saturation, cos, sin);
      var n := |Flatten(counts)|;
      var k := RowMajor(c, i, Cols(counts));
      k < n && |codes.rate| == |codes.phase| == |codes.polar| == 2 * n &&
      codes.rate[k] == 0.0 && codes.rate[n + k] == 0.0 &&
      codes.phase[k] == 0.0 && codes.phase[n + k] == 0.0 &&
      codes.polar[k] == 0.0 && codes.polar[n + k] == 0.0
  {
    var codes := CodeMaker(counts, phases, rateAngle, saturation, cos, sin);
    assert LaidOut(codes, counts, phases, rateAngle, saturation, cos, sin, c, i);
  }

  /** The rate code depends on the counts only: other phases, same rate code. */
  lemma RateIgnoresPhases(counts: seq<seq<nat>>, phases1: seq<seq<real>>, phases2: seq<seq<real>>,
                          rateAngle: real, saturation: real, cos: real -> real, sin: real -> real)
    requires SameShape(counts, phases1) && SameShape(counts, phases2)
    ensures CodeMaker(counts, phases1, rateAngle, saturation, cos, sin).rate
         == CodeMaker(counts, phases2, rateAngle, saturation, cos, sin).rate
  {
  }

  /** Two count matrices of one shape that are zero in the same places. */
  predicate SameActivity(counts1: seq<seq<nat>>, counts2: seq<seq<nat>>)
  {
    |counts1| == |counts2| &&
    forall c :: 0 <= c < |counts1| ==>
      (|counts1[c]| == |counts2[c]| &&
       forall i :: 0 <= i < |counts1[c]| ==> (counts1[c][i] == 0 <==> counts2[c][i] == 0))
  }

  lemma {:induction false} SameActivityFlattened(counts1: seq<seq<nat>>, counts2: seq<seq<nat>>, saturation: real)
    requires SameActivity(counts1, counts2)
    ensures Saturate(Flatten(counts1), saturation) == Saturate(Flatten(counts2), saturation)
    decreases |counts1|
  {
    if |counts1| > 0 {
      SameActivityFlattened(counts1[1..], counts2[1..], saturation);
      var a := Saturate(counts1[0], saturation);
      var b := Saturate(counts2[0], saturation);
      assert a == b;
      SaturateConcat(counts1[0], Flatten(counts1[1..]), saturation);
      SaturateConcat(counts2[0], Flatten(counts2[1..]), saturation);
    }
  }

  lemma SaturateConcat(xs: seq<nat>, ys: seq<nat>, saturation: real)
    ensures Saturate(xs + ys, saturation) == Saturate(xs, saturation) + Saturate(ys, saturation)
  {
  }

  /** The phase code sees only which bins are active: changing a nonzero count
      to another nonzero count leaves it unchanged. */
  lemma PhaseCodeSeesOnlyActivity(counts1: seq<seq<nat>>, counts2: seq<seq<nat>>, phases: seq<seq<real>>,
                                  rateAngle: real, saturation: real, cos: real -> real, sin: real -> real)
    requires SameShape(counts1, phases) && SameActivity(counts1, counts2)
    ensures SameShape(counts2, phases)
    ensures CodeMaker(counts1, phases, rateAngle, saturation, cos, sin).phase
         == CodeMaker(counts2, phases, rateAngle, saturation, cos, sin).phase
  {
    SameActivityFlattened(counts1, counts2, saturation);
  }
}

=== FILE: consolidate.dfy ===
/** `collect_spikes`, which copies one grid seed's raw per-run files into
    consolidated stores (one per duration, shuffling and tuning), and the
    whole of `load_spikes`, which runs that consolidation first when the
    store it is asked for does not exist. The file system is a map from path
    to store; the directory listing is a parameter. */
module Consolidation {
  import opened Outcomes
  import opened Text
  import opened Binning
  import opened SpikeStore
  import opened Batch

  /** Every consolidated shelve file, by path. */
  type Stores = map<string, Store>

  /** A raw per-run file: spikes by trajectory, and the run's parameters. */
  datatype RawFile = RawFile(gridSpikes: map<Traj, SeedSpikes>, granuleSpikes: map<Traj, SeedSpikes>,
                             parameters: Parameters)

  /** A listed raw file: its path without the ".dat" suffix, and its contents. */
  datatype RawEntry = RawEntry(stem: string, contents: RawFile)

  /** The first `_`-separated field of every consolidated store's path. */
  const StoreDir: string := "/home/baris/results/collective/grid-seed"

  /** The fixed part of a consolidated store's path. */
  const StorePrefix: string := StoreDir + "_duration_shuffling_tuning_"

  predicate KnownShuffling(shuffling: string)
  {
    shuffling == "shuffled" || shuffling == "non-shuffled"
  }

  /** Neither shuffling label holds the field separator. */
  lemma KnownShufflingHasNoSeparator(shuffling: string)
    requires KnownShuffling(shuffling)
    ensures '_' !in shuffling
  {
  }

  /** The path `collect_spikes` writes a run to: the prefix, then grid seed,
      duration, shuffling label and tuning, separated by `_`. Reading it
      back gives the grid seed, duration and label, provided the label and
      tuning hold no `_`. */
  function StoreName(gridSeed: int, dur: int, shuffling: string, tuning: string): (path: string)
    ensures '_' !in shuffling && '_' !in tuning ==>
      ParseStorePath(path) == Ok(StoreFields(gridSeed, IntToString(dur), shuffling))
  {
    var outputName := IntToString(gridSeed) + "_" + IntToString(dur);
    StorePathFields(gridSeed, dur, shuffling, tuning);
    StorePrefix + outputName + "_" + shuffling + "_" + tuning
  }

  /** A store path spelled out from its parts reads back as those parts. */
  lemma StorePathFields(gridSeed: int, dur: int, shuffling: string, tuning: string)
    ensures '_' !in shuffling && '_' !in tuning ==>
      ParseStorePath(StorePrefix + (IntToString(gridSeed) + "_" + IntToString(dur)) + "_" + shuffling + "_" + tuning)
        == Ok(StoreFields(gridSeed, IntToString(dur), shuffling))
  {
    if '_' !in shuffling && '_' !in tuning {
      NameIsJoin(gridSeed, dur, shuffling, tuning);
      ParseIntToString(gridSeed);
      JoinedStorePath(IntToString(gridSeed), IntToString(dur), shuffling, tuning);
    }
  }

  /** The `_`-join of the prefix's four fields and four separator-free
      fields reads back as its fields 4, 5 and 6. */
  lemma JoinedStorePath(g: string, d: string, shuffling: string, tuning: string)
    requires '_' !in g && '_' !in d && '_' !in shuffling && '_' !in tuning
    requires ParseInt(g).Some?
    ensures ParseStorePath(Join([StoreDir, "duration", "shuffling", "tuning", g, d, shuffling, tuning], '_'))
         == Ok(StoreFields(ParseInt(g).value, d, shuffling))
  {
    var fs := [StoreDir, "duration", "shuffling", "tuning", g, d, shuffling, tuning];
    assert '_' !in StoreDir;
    SplitJoin(fs, '_');
  }

  /** The store path spelled as the `_`-join of its eight fields: the
      prefix's four, then grid seed, duration, shuffling and tuning. */
  lemma NameIsJoin(gridSeed: int, dur: int, shuffling: string, tuning: string)
    ensures StorePrefix + (IntToString(gridSeed) + "_" + IntToString(dur)) + "_" + shuffling + "_" + tuning
         == Join([StoreDir, "duration", "shuffling", "tuning", IntToString(gridSeed), IntToString(dur), shuffling, tuning], '_')
  {
    var g := IntToString(gridSeed);
    var d := IntToString(dur);
    JoinEight([StoreDir, "duration", "shuffling", "tuning", g, d, shuffling, tuning]);
    NameTail(g, d, shuffling, tuning);
    PrefixFields();
    var tail := g + ['_'] + (d + ['_'] + (shuffling + ['_'] + tuning));
    AppendTail(StorePrefix, g + "_" + d, shuffling, tuning);
    PrefixTail(StoreDir, "duration", "shuffling", "tuning", '_', tail);
  }

  lemma AppendTail(p: string, x: string, shuffling: string, tuning: string)
    ensures p + x + "_" + shuffling + "_" + tuning == p + (x + "_" + shuffling + "_" + tuning)
  {
  }

  lemma PrefixTail<T>(a: seq<T>, b: seq<T>, c: seq<T>, d: seq<T>, sep: T, tail: seq<T>)
    ensures (a + [sep] + (b + [sep] + (c + [sep] + (d + [sep])))) + tail == a + [sep] + (b + [sep] + (c + [sep] + (d + [sep] + tail)))
  {
  }

  lemma NameTail(g: string, d: string, shuffling: string, tuning: string)
    ensures (g + "_" + d) + "_" + shuffling + "_" + tuning == g + ['_'] + (d + ['_'] + (shuffling + ['_'] + tuning))
  {
  }

  lemma PrefixFields()
    ensures StorePrefix == StoreDir + ['_'] + ("duration" + ['_'] + ("shuffling" + ['_'] + ("tuning" + ['_'])))
  {
  }

  /** What `load_spikes` reads back from a store path. */
  datatype StoreFields = StoreFields(gridSeed: int, dur: string, shuffling: string)

  /** Fields 4, 6 and 5 of the `_`-split path: grid seed (an integer),
      shuffling label and duration text. */
  function ParseStorePath(path: string): (r: Result<StoreFields>)
    ensures r.Fail? ==> r.error == MalformedName
    ensures r.Ok? ==> '_' !in r.value.shuffling && '_' !in r.value.dur
    ensures var f := Split(path, '_');
      (r.Ok? <==> |f| >= 7 && ParseInt(f[4]).Some?) &&
      (r.Ok? ==> r.value == StoreFields(ParseInt(f[4]).value, f[5], f[6]))
  {
    var f := Split(path, '_');
    if |f| < 5 then Fail(MalformedName)
    else
      match ParseInt(f[4])
      case None => Fail(MalformedName)
      case Some(g) => if |f| < 7 then Fail(MalformedName) else Ok(StoreFields(g, f[5], f[6]))
  }

  lemma JoinStep(fs: seq<string>, k: nat)
    requires k + 1 < |fs|
    ensures Join(fs[k..], '_') == fs[k] + ['_'] + Join(fs[k + 1..], '_')
  {
    assert fs[k..][1..] == fs[k + 1..];
  }

  /** Eight joined fields, spelled out. */
  lemma JoinEight(fs: seq<string>)
    requires |fs| == 8
    ensures Join(fs, '_') == fs[0] + ['_'] + (fs[1] + ['_'] + (fs[2] + ['_'] + (fs[3] + ['_'] +
      (fs[4] + ['_'] + (fs[5] + ['_'] + (fs[6] + ['_'] + fs[7]))))))
  {
    assert fs[7..] == [fs[7]];
    var j7 := fs[7];
    assert Join(fs[7..], '_') == j7;
    JoinStep(fs, 6);
    var j6 := fs[6] + ['_'] + j7;
    assert Join(fs[6..], '_') == j6;
    JoinStep(fs, 5);
    var j5 := fs[5] + ['_'] + j6;
    assert Join(fs[5..], '_') == j5;
    JoinStep(fs, 4);
    var j4 := fs[4] + ['_'] + j5;
    assert Join(fs[4..], '_') == j4;
    JoinStep(fs, 3);
    var j3 := fs[3] + ['_'] + j4;
    assert Join(fs[3..], '_') == j3;
    JoinStep(fs, 2);
    var j2 := fs[2] + ['_'] + j3;
    assert Join(fs[2..], '_') == j2;
    JoinStep(fs, 1);
    var j1 := fs[1] + ['_'] + j2;
    assert Join(fs[1..], '_') == j1;
    JoinStep(fs, 0);
    assert fs[0..] == fs;
  }

  /** What `collect_spikes` reads from a raw file's name. */
  datatype RawName = RawName(trajKey: string, traj: Traj, dur: int, tuning: string)

  /** Field 9 of the `_`-split stem without its brackets is the trajectory
      key, read as a number; field 13 is the tuning; field 11 the duration. */
  function ParseRawName(stem: string): (r: Result<RawName>)
    ensures r.Fail? ==> r.error == MalformedName
    ensures r.Ok? ==> ParseTraj(r.value.trajKey) == Some(r.value.traj)
    ensures var f := Split(stem, '_');
      (r.Ok? <==> |f| >= 14 && ParseTraj(StripEnds(f[9])).Some? && ParseInt(f[11]).Some?) &&
      (r.Ok? ==> r.value == RawName(StripEnds(f[9]), ParseTraj(StripEnds(f[9])).value, ParseInt(f[11]).value, f[13]))
  {
    var f := Split(stem, '_');
    if |f| < 10 then Fail(MalformedName)
    else
      var key := StripEnds(f[9]);
      match ParseTraj(key)
      case None => Fail(MalformedName)
      case Some(traj) =>
        if |f| < 14 then Fail(MalformedName)
        else
          match ParseInt(f[11])
          case None => Fail(MalformedName)
          case Some(d) => Ok(RawName(key, traj, d, f[13]))
  }

  /** A stem whose fields 9, 11 and 13 are a bracketed trajectory key, a
      formatted duration and a tuning is read back as exactly those. */
  lemma RawNameRoundTrip(fields: seq<string>, t: Traj, dur: int, tuning: string)
    requires |fields| == 14
    requires forall i :: 0 <= i < |fields| ==> '_' !in fields[i]
    requires fields[9] == "[" + TrajKey(t) + "]" && fields[11] == IntToString(dur) && fields[13] == tuning
    ensures ParseRawName(Join(fields, '_')) == Ok(RawName(TrajKey(t), t, dur, tuning))
  {
    SplitJoin(fields, '_');
    StripEndsOfBracketed(TrajKey(t));
    ParseTrajKey(t);
    ParseIntToString(dur);
  }

  /** One record copied into one consolidated store. */
  datatype Write = Write(storeName: string, key: string, record: Record)

  /** The copy one raw file asks for: the named trajectory's grid and
      granule spikes and the run's parameters, stored under the key from the
      file name in the store for the grid seed, the file's duration, the
      shuffling label and the file's tuning. */
  function FileWrite(gridSeed: int, shuffling: string, entry: RawEntry): (r: Result<Write>)
    ensures r.Fail? ==> r.error == MalformedName || r.error == MissingRawTrajectory
    ensures r.Ok? <==> (ParseRawName(entry.stem).Ok? &&
      ParseRawName(entry.stem).value.traj in entry.contents.gridSpikes &&
      ParseRawName(entry.stem).value.traj in entry.contents.granuleSpikes)
  {
    match ParseRawName(entry.stem)
    case Fail(e) => Fail(e)
    case Ok(name) =>
      var raw := entry.contents;
      if name.traj !in raw.gridSpikes || name.traj !in raw.granuleSpikes then Fail(MissingRawTrajectory)
      else
        Ok(Write(StoreName(gridSeed, name.dur, shuffling, name.tuning), name.trajKey,
                 Record(raw.gridSpikes[name.traj], raw.granuleSpikes[name.traj], raw.parameters)))
  }

  /** A readable file's write goes to the store for the grid seed, the
      file's duration, the shuffling label and the file's tuning, under the
      key from the file name, and copies the named trajectory's grid and
      granule spikes and the run's parameters. */
  lemma FileWriteCopies(gridSeed: int, shuffling: string, entry: RawEntry)
    requires FileWrite(gridSeed, shuffling, entry).Ok?
    ensures var w := FileWrite(gridSeed, shuffling, entry).value;
      var name := ParseRawName(entry.stem).value;
      w.storeName == StoreName(gridSeed, name.dur, shuffling, name.tuning) &&
      w.key == name.trajKey &&
      w.record.gridSpikes == entry.contents.gridSpikes[name.traj] &&
      w.record.granuleSpikes == entry.contents.granuleSpikes[name.traj] &&
      w.record.parameters == entry.contents.parameters
  {
  }

  /** The record stored under `key` in the store at `name`, if any. */
  function Lookup(stores: Stores, name: string, key: string): Option<Record>
  {
    if name in stores && key in stores[name] then Some(stores[name][key]) else None
  }

  /** Open (creating if absent) the store and set one key. */
  function ApplyWrite(stores: Stores, w: Write): (r: Stores)
    ensures r.Keys == stores.Keys + {w.storeName}
    ensures forall name, key :: (Lookup(r, name, key) ==
      if name == w.storeName && key == w.key then Some(w.record) else Lookup(stores, name, key))
  {
    var store := if w.storeName in stores then stores[w.storeName] else map[];
    stores[w.storeName := store[w.key := w.record]]
  }

  /** The writes one after another. */
  function ApplyAll(stores: Stores, ws: seq<Write>): Stores
    decreases |ws|
  {
    if |ws| == 0 then stores else ApplyWrite(ApplyAll(stores, ws[..|ws| - 1]), ws[|ws| - 1])
  }

  /** The record of the last write to (`name`, `key`), if any. */
  function LastWrite(ws: seq<Write>, name: string, key: string): (r: Option<Record>)
    ensures r.Some? <==> exists i :: 0 <= i < |ws| && ws[i].storeName == name && ws[i].key == key
    decreases |ws|
  {
    if |ws| == 0 then None
    else
      var w := ws[|ws| - 1];
      var init := ws[..|ws| - 1];
      assert forall i :: 0 <= i < |init| ==> init[i] == ws[i];
      if w.storeName == name && w.key == key then Some(w.record) else LastWrite(init, name, key)
  }

  /** The stores written to. */
  function Names(ws: seq<Write>): set<string>
  {
    set i | 0 <= i < |ws| :: ws[i].storeName
  }

  /** After a series of writes each key holds the last record written to it,
      and every key nobody wrote to holds what it held before. */
  lemma {:induction false} ApplyAllLookup(stores: Stores, ws: seq<Write>, name: string, key: string)
    ensures Lookup(ApplyAll(stores, ws), name, key) ==
      (if LastWrite(ws, name, key).Some? then LastWrite(ws, name, key) else Lookup(stores, name, key))
    decreases |ws|
  {
    if |ws| > 0 {
      ApplyAllLookup(stores, ws[..|ws| - 1], name, key);
    }
  }

  /** Writes create the stores they name and remove none. */
  lemma {:induction false} ApplyAllKeys(stores: Stores, ws: seq<Write>)
    ensures ApplyAll(stores, ws).Keys == stores.Keys + Names(ws)
    decreases |ws|
  {
    if |ws| > 0 {
      var init := ws[..|ws| - 1];
      ApplyAllKeys(stores, init);
      assert Names(ws) == Names(init) + {ws[|ws| - 1].storeName} by {
        forall x | x in Names(ws) ensures x in Names(init) + {ws[|ws| - 1].storeName} {
          var i :| 0 <= i < |ws| && ws[i].storeName == x;
          if i < |ws| - 1 { assert init[i] == ws[i]; }
        }
        forall x | x in Names(init) ensures x in Names(ws) {
          var i :| 0 <= i < |init| && init[i].storeName == x;
          assert ws[i] == init[i];
        }
      }
    }
  }

  /** Two file systems with the same paths and the same records are equal. */
  lemma StoresExt(a: Stores, b: Stores)
    requires a.Keys == b.Keys
    requires forall name, key :: Lookup(a, name, key) == Lookup(b, name, key)
    ensures a == b
  {
    forall name | name in a ensures a[name] == b[name] {
      forall key | key in a[name] ensures key in b[name] && a[name][key] == b[name][key] {
        assert Lookup(a, name, key) == Lookup(b, name, key);
      }
      forall key | key in b[name] ensures key in a[name] {
        assert Lookup(a, name, key) == Lookup(b, name, key);
      }
    }
  }

  /** Repeating a series of writes changes nothing. */
  lemma ApplyAllTwice(stores: Stores, ws: seq<Write>)
    ensures ApplyAll(ApplyAll(stores, ws), ws) == ApplyAll(stores, ws)
  {
    var once := ApplyAll(stores, ws);
    var twice := ApplyAll(once, ws);
    ApplyAllKeys(stores, ws);
    ApplyAllKeys(once, ws);
    forall name, key ensures Lookup(twice, name, key) == Lookup(once, name, key) {
      ApplyAllLookup(stores, ws, name, key);
      ApplyAllLookup(once, ws, name, key);
    }
    StoresExt(twice, once);
  }

  /** The writes a file list asks for up to its first failing file, and that
      failure. No file's write depends on the stores. */
  datatype Plan = Plan(writes: seq<Write>, failure: Option<Error>)

  /** The outcome of reading each listed file, in listing order. */
  function FileWrites(gridSeed: int, shuffling: string, files: seq<RawEntry>): (rs: seq<Result<Write>>)
    ensures |rs| == |files| && forall i :: 0 <= i < |files| ==> rs[i] == FileWrite(gridSeed, shuffling, files[i])
  {
    seq(|files|, i requires 0 <= i < |files| => FileWrite(gridSeed, shuffling, files[i]))
  }

  /** The writes before the first failed read, and that failure: all the
      writes when every read succeeds; otherwise the failure is the first
      failed read's error. */
  function PlanOf(rs: seq<Result<Write>>): (p: Plan)
    ensures p.failure.None? <==> forall i :: 0 <= i < |rs| ==> rs[i].Ok?
    ensures p.failure.None? ==> (|p.writes| == |rs| && forall i :: 0 <= i < |rs| ==> p.writes[i] == rs[i].value)
    ensures p.failure.Some? ==> exists i :: (0 <= i < |rs| && rs[i] == Fail(p.failure.value) &&
      (forall j :: 0 <= j < i ==> rs[j].Ok?) &&
      |p.writes| == i && forall j :: 0 <= j < i ==> p.writes[j] == rs[j].value)
    decreases |rs|
  {
    if |rs| == 0 then Plan([], None)
    else
      var init := rs[..|rs| - 1];
      assert forall i :: 0 <= i < |init| ==> init[i] == rs[i];
      var p := PlanOf(init);
      var last := rs[|rs| - 1];
      if p.failure.Some? then p
      else if last.Fail? then Plan(p.writes, Some(last.error))
      else
        var ws := p.writes + [last.value];
        assert forall i :: 0 <= i < |init| ==> ws[i] == p.writes[i];
        Plan(ws, None)
  }

  /** Every listed file can be copied. */
  predicate AllReadable(gridSeed: int, shuffling: string, files: seq<RawEntry>)
  {
    forall i :: 0 <= i < |files| ==> FileWrite(gridSeed, shuffling, files[i]).Ok?
  }

  /** The outcome of `collect_spikes`: the stores afterwards, and the
      exception it raised, if any. */
  datatype Run = Run(stores: Stores, failure: Option<Error>)

  /** The loop over the listed files: each file's record is written before
      the next file is read, and the first file that cannot be read stops
      the loop, keeping what earlier files wrote. */
  function CollectFiles(gridSeed: int, shuffling: string, files: seq<RawEntry>, stores: Stores): (r: Run)
    ensures r.failure.None? <==> AllReadable(gridSeed, shuffling, files)
    ensures r.failure.Some? ==> r.failure.value == MalformedName || r.failure.value == MissingRawTrajectory
    ensures stores.Keys <= r.stores.Keys
    decreases |files|
  {
    if |files| == 0 then Run(stores, None)
    else
      var init := files[..|files| - 1];
      ReadableSnoc(gridSeed, shuffling, files);
      var prev := CollectFiles(gridSeed, shuffling, init, stores);
      if prev.failure.Some? then prev
      else
        match FileWrite(gridSeed, shuffling, files[|files| - 1])
        case Fail(e) => Run(prev.stores, Some(e))
        case Ok(w) => Run(ApplyWrite(prev.stores, w), None)
  }

  /** Every file of a non-empty list can be read iff every file but the
      last can, and the last can. */
  lemma ReadableSnoc(gridSeed: int, shuffling: string, files: seq<RawEntry>)
    requires |files| > 0
    ensures AllReadable(gridSeed, shuffling, files) <==>
      AllReadable(gridSeed, shuffling, files[..|files| - 1]) && FileWrite(gridSeed, shuffling, files[|files| - 1]).Ok?
  {
    var init := files[..|files| - 1];
    assert forall i :: 0 <= i < |init| ==> init[i] == files[i];
  }

  /** The loop applies exactly the planned writes and stops with the planned
      failure. */
  lemma {:induction false} CollectFilesFollowsPlan(gridSeed: int, shuffling: string, files: seq<RawEntry>, stores: Stores)
    ensures var p := PlanOf(FileWrites(gridSeed, shuffling, files));
      CollectFiles(gridSeed, shuffling, files, stores) == Run(ApplyAll(stores, p.writes), p.failure)
    decreases |files|
  {
    if |files| > 0 {
      var init := files[..|files| - 1];
      CollectFilesFollowsPlan(gridSeed, shuffling, init, stores);
      var rs := FileWrites(gridSeed, shuffling, files);
      assert rs[..|rs| - 1] == FileWrites(gridSeed, shuffling, init);
      var p := PlanOf(FileWrites(gridSeed, shuffling, init));
      if p.failure.None? {
        match FileWrite(gridSeed, shuffling, files[|files| - 1])
        case Fail(e) =>
        case Ok(w) =>
          var ws := p.writes + [w];
          assert ws[..|ws| - 1] == p.writes;
      }
    }
  }

  /** `collect_spikes`. An unknown shuffling label raises before any file is
      touched. Otherwise the listed files are copied one by one, as planned:
      the stores afterwards are the planned writes applied to the stores
      before, and the call fails exactly when some listed file cannot be
      read. */
  function CollectSpikes(gridSeed: int, shuffling: string, files: seq<RawEntry>, stores: Stores): (r: Run)
    ensures !KnownShuffling(shuffling) ==> r == Run(stores, Some(UnknownShuffling))
    ensures KnownShuffling(shuffling) ==>
      var p := PlanOf(FileWrites(gridSeed, shuffling, files));
      r == Run(ApplyAll(stores, p.writes), p.failure)
    ensures r.failure.None? <==>
      KnownShuffling(shuffling) && forall i :: 0 <= i < |files| ==> FileWrite(gridSeed, shuffling, files[i]).Ok?
  {
    if !KnownShuffling(shuffling) then Run(stores, Some(UnknownShuffling))
    else
      CollectFilesFollowsPlan(gridSeed, shuffling, files, stores);
      CollectFiles(gridSeed, shuffling, files, stores)
  }

  /** Running `collect_spikes` a second time over the same files leaves the
      stores as the first run left them and ends the same way: records are
      overwritten, never duplicated. */
  lemma CollectIdempotent(gridSeed: int, shuffling: string, files: seq<RawEntry>, stores: Stores)
    ensures var first := CollectSpikes(gridSeed, shuffling, files, stores);
      CollectSpikes(gridSeed, shuffling, files, first.stores) == first
  {
    if KnownShuffling(shuffling) {
      ApplyAllTwice(stores, PlanOf(FileWrites(gridSeed, shuffling, files)).writes);
    }
  }

  /** After a successful run each written key holds the record of the last
      listed file that writes it; every other key is as before. */
  lemma CollectLastWriterWins(gridSeed: int, shuffling: string, files: seq<RawEntry>, stores: Stores,
                              name: string, key: string)
    requires CollectSpikes(gridSeed, shuffling, files, stores).failure.None?
    ensures var ws := PlanOf(FileWrites(gridSeed, shuffling, files)).writes;
      var after := CollectSpikes(gridSeed, shuffling, files, stores).stores;
      Lookup(after, name, key) == if LastWrite(ws, name, key).Some? then LastWrite(ws, name, key) else Lookup(stores, name, key)
  {
    ApplyAllLookup(stores, PlanOf(FileWrites(gridSeed, shuffling, files)).writes, name, key);
  }

  /** The last write to a key is the write of the last index that targets it. */
  lemma {:induction false} LastWriteAt(ws: seq<Write>, i: nat)
    requires i < |ws|
    requires forall j :: i < j < |ws| ==> !(ws[j].storeName == ws[i].storeName && ws[j].key == ws[i].key)
    ensures LastWrite(ws, ws[i].storeName, ws[i].key) == Some(ws[i].record)
    decreases |ws|
  {
    if i < |ws| - 1 {
      var init := ws[..|ws| - 1];
      assert init[i] == ws[i];
      forall j | i < j < |init| ensures !(init[j].storeName == init[i].storeName && init[j].key == init[i].key) {
        assert init[j] == ws[j];
      }
      LastWriteAt(init, i);
    }
  }

  /** A raw file's spikes of one cell type, by trajectory. */
  function RawCellSpikes(raw: RawFile, cellType: string): map<Traj, SeedSpikes>
    requires KnownCellType(cellType)
  {
    if cellType == "grid" then raw.gridSpikes else raw.granuleSpikes
  }

  /** What `load_spikes` returns, with the stores as it leaves them. */
  datatype Loaded = Loaded(stores: Stores, result: Result<map<Traj, seq<Sample>>>)

  /** `load_spikes`. When no store exists at `path`, the grid seed, shuffling
      label (and duration text, which goes unused) are read from the path,
      `collect_spikes` runs over the files `listing` gives for that seed and
      label, and the store at `path` is opened, empty if the run did not
      create it. The requested spikes are then read from it. */
  function LoadFromPath(stores: Stores, listing: (int, string) -> seq<RawEntry>, path: string,
                        cellType: string, trajs: seq<Traj>, n: int): (r: Loaded)
    ensures path in r.stores || r.result.Fail?
    ensures r.result.Ok? ==> r.result == LoadSpikes(r.stores[path], cellType, trajs, n)
    ensures stores.Keys <= r.stores.Keys
    ensures path in stores ==> r.stores == stores
    ensures path in stores ==> r == Loaded(stores, LoadSpikes(stores[path], cellType, trajs, n))
    ensures path !in stores && ParseStorePath(path).Fail? ==> r == Loaded(stores, Fail(MalformedName))
    ensures path !in stores && ParseStorePath(path).Ok? ==>
      var f := ParseStorePath(path).value;
      var run := CollectSpikes(f.gridSeed, f.shuffling, listing(f.gridSeed, f.shuffling), stores);
      (run.failure.Some? ==> r == Loaded(run.stores, Fail(run.failure.value))) &&
      (run.failure.None? ==>
        r.stores == run.stores[path := if path in run.stores then run.stores[path] else map[]] &&
        r.result == LoadSpikes(r.stores[path], cellType, trajs, n))
  {
    if path in stores then Loaded(stores, LoadSpikes(stores[path], cellType, trajs, n))
    else
      match ParseStorePath(path)
      case Fail(e) => Loaded(stores, Fail(e))
      case Ok(fields) =>
        var run := CollectSpikes(fields.gridSeed, fields.shuffling, listing(fields.gridSeed, fields.shuffling), stores);
        ApplyAllKeys(stores, PlanOf(FileWrites(fields.gridSeed, fields.shuffling, listing(fields.gridSeed, fields.shuffling))).writes);
        if run.failure.Some? then Loaded(run.stores, Fail(run.failure.value))
        else
          var store := if path in run.stores then run.stores[path] else map[];
          Loaded(run.stores[path := store], LoadSpikes(store, cellType, trajs, n))
  }

  /** Loading the same spikes again reads the same store, runs no second
      consolidation and returns the same result. */
  lemma LoadAgain(stores: Stores, listing: (int, string) -> seq<RawEntry>, path: string,
                  cellType: string, trajs: seq<Traj>, n: int)
    requires LoadFromPath(stores, listing, path, cellType, trajs, n).result.Ok?
    ensures var first := LoadFromPath(stores, listing, path, cellType, trajs, n);
      LoadFromPath(first.stores, listing, path, cellType, trajs, n) == first
  {
  }

  /** Consolidating and then loading returns what the raw files hold. If the
      `i`-th listed file is named for trajectory `t`, duration `dur` and
      tuning `tuning`, no later file writes the same key of the same store,
      and every listed file can be read, then loading grid or granule spikes
      for `t` from that store's path returns the raw file's spikes of that
      cell type for `t` under its first `n` Poisson seeds. */
  lemma ConsolidateThenLoad(stores: Stores, listing: (int, string) -> seq<RawEntry>, gridSeed: int,
                            shuffling: string, dur: int, tuning: string, t: Traj, i: nat, n: int, cellType: string)
    requires KnownShuffling(shuffling) && '_' !in tuning && KnownCellType(cellType)
    requires StoreName(gridSeed, dur, shuffling, tuning) !in stores
    requires var files := listing(gridSeed, shuffling);
      i < |files| && ParseRawName(files[i].stem) == Ok(RawName(TrajKey(t), t, dur, tuning))
    requires var files := listing(gridSeed, shuffling);
      forall j :: 0 <= j < |files| ==> FileWrite(gridSeed, shuffling, files[j]).Ok?
    requires var files := listing(gridSeed, shuffling);
      forall j :: i < j < |files| ==>
        !(FileWrite(gridSeed, shuffling, files[j]).value.storeName == StoreName(gridSeed, dur, shuffling, tuning) &&
          FileWrite(gridSeed, shuffling, files[j]).value.key == TrajKey(t))
    requires var raw := listing(gridSeed, shuffling)[i].contents;
      t in RawCellSpikes(raw, cellType) && 1 <= n <= |raw.parameters.poissonSeeds| &&
      forall j :: 0 <= j < n ==> raw.parameters.poissonSeeds[j] in RawCellSpikes(raw, cellType)[t]
    ensures var raw := listing(gridSeed, shuffling)[i].contents;
      var r := LoadFromPath(stores, listing, StoreName(gridSeed, dur, shuffling, tuning), cellType, [t], n);
      r.result.Ok? && t in r.result.value && |r.result.value[t]| == n &&
      forall j :: 0 <= j < n ==> r.result.value[t][j] == RawCellSpikes(raw, cellType)[t][raw.parameters.poissonSeeds[j]]
  {
    CollectedLoadable(stores, listing(gridSeed, shuffling), gridSeed, shuffling, dur, tuning, t, i, n, cellType);
    KnownShufflingHasNoSeparator(shuffling);
    LoadCollectedPath(stores, listing, gridSeed, shuffling, dur, tuning, t, n, cellType);
  }

  /** After consolidation the `i`-th file's trajectory can be read as grid
      or granule spikes from the store for its duration and tuning, and what
      is read is that file's spikes of that cell type under its first `n`
      Poisson seeds. */
  lemma CollectedLoadable(stores: Stores, files: seq<RawEntry>, gridSeed: int,
                          shuffling: string, dur: int, tuning: string, t: Traj, i: nat, n: int, cellType: string)
    requires KnownShuffling(shuffling) && KnownCellType(cellType)
    requires i < |files| && ParseRawName(files[i].stem) == Ok(RawName(TrajKey(t), t, dur, tuning))
    requires forall j :: 0 <= j < |files| ==> FileWrite(gridSeed, shuffling, files[j]).Ok?
    requires forall j :: i < j < |files| ==>
        !(FileWrite(gridSeed, shuffling, files[j]).value.storeName == StoreName(gridSeed, dur, shuffling, tuning) &&
          FileWrite(gridSeed, shuffling, files[j]).value.key == TrajKey(t))
    requires var raw := files[i].contents;
      t in RawCellSpikes(raw, cellType) && 1 <= n <= |raw.parameters.poissonSeeds| &&
      forall j :: 0 <= j < n ==> raw.parameters.poissonSeeds[j] in RawCellSpikes(raw, cellType)[t]
    ensures var run := CollectSpikes(gridSeed, shuffling, files, stores);
      var path := StoreName(gridSeed, dur, shuffling, tuning);
      run.failure.None? && path in run.stores && Loadable(run.stores[path], cellType, t, n)
    ensures var run := CollectSpikes(gridSeed, shuffling, files, stores);
      var raw := files[i].contents;
      forall v :: LoadedFrom(run.stores[StoreName(gridSeed, dur, shuffling, tuning)], cellType, t, n, v) ==>
        |v| == n && forall j :: 0 <= j < n ==> v[j] == RawCellSpikes(raw, cellType)[t][raw.parameters.poissonSeeds[j]]
  {
    var path := StoreName(gridSeed, dur, shuffling, tuning);
    CollectedSpikes(stores, files, gridSeed, shuffling, dur, tuning, t, i);
    var run := CollectSpikes(gridSeed, shuffling, files, stores);
    CopiedRecordLoadable(run.stores[path], cellType, t, n, files[i].contents);
  }

  /** A store holding a raw file's spikes of one cell type and its
      parameters for `t` reads back, for `n` seeds the raw file has spikes
      for, those spikes. */
  lemma CopiedRecordLoadable(store: Store, cellType: string, t: Traj, n: int, raw: RawFile)
    requires KnownCellType(cellType)
    requires TrajKey(t) in store && t in RawCellSpikes(raw, cellType)
    requires CellSpikes(store[TrajKey(t)], cellType) == RawCellSpikes(raw, cellType)[t]
    requires store[TrajKey(t)].parameters == raw.parameters
    requires 1 <= n <= |raw.parameters.poissonSeeds|
    requires forall j :: 0 <= j < n ==> raw.parameters.poissonSeeds[j] in RawCellSpikes(raw, cellType)[t]
    ensures Loadable(store, cellType, t, n)
    ensures forall v :: LoadedFrom(store, cellType, t, n, v) ==>
      |v| == n && forall j :: 0 <= j < n ==> v[j] == RawCellSpikes(raw, cellType)[t][raw.parameters.poissonSeeds[j]]
  {
  }

  /** Loading one trajectory from the path of a store that did not exist:
      when the consolidation it runs succeeds and leaves a readable record,
      the result is that record's spikes. */
  lemma LoadCollectedPath(stores: Stores, listing: (int, string) -> seq<RawEntry>, gridSeed: int,
                          shuffling: string, dur: int, tuning: string, t: Traj, n: int, cellType: string)
    requires '_' !in shuffling && '_' !in tuning
    requires StoreName(gridSeed, dur, shuffling, tuning) !in stores
    requires var run := CollectSpikes(gridSeed, shuffling, listing(gridSeed, shuffling), stores);
      run.failure.None? && StoreName(gridSeed, dur, shuffling, tuning) in run.stores &&
      Loadable(run.stores[StoreName(gridSeed, dur, shuffling, tuning)], cellType, t, n)
    ensures var run := CollectSpikes(gridSeed, shuffling, listing(gridSeed, shuffling), stores);
      var r := LoadFromPath(stores, listing, StoreName(gridSeed, dur, shuffling, tuning), cellType, [t], n);
      r.result.Ok? && t in r.result.value &&
      LoadedFrom(run.stores[StoreName(gridSeed, dur, shuffling, tuning)], cellType, t, n, r.result.value[t])
  {
    var path := StoreName(gridSeed, dur, shuffling, tuning);
    var f := ParseStorePath(path).value;
    assert f.gridSeed == gridSeed && f.shuffling == shuffling;
    var run := CollectSpikes(gridSeed, shuffling, listing(gridSeed, shuffling), stores);
    LoadAfterCollect(stores, listing, path, cellType, [t], n);
    LoadOneTrajectory(run.stores[path], cellType, t, n);
  }

  /** The consolidated store for the `i`-th file's duration and tuning holds,
      under the file's trajectory key, that file's spikes and parameters. */
  lemma CollectedSpikes(stores: Stores, files: seq<RawEntry>, gridSeed: int,
                        shuffling: string, dur: int, tuning: string, t: Traj, i: nat)
    requires KnownShuffling(shuffling)
    requires i < |files| && ParseRawName(files[i].stem) == Ok(RawName(TrajKey(t), t, dur, tuning))
    requires forall j :: 0 <= j < |files| ==> FileWrite(gridSeed, shuffling, files[j]).Ok?
    requires forall j :: i < j < |files| ==>
        !(FileWrite(gridSeed, shuffling, files[j]).value.storeName == StoreName(gridSeed, dur, shuffling, tuning) &&
          FileWrite(gridSeed, shuffling, files[j]).value.key == TrajKey(t))
    ensures var run := CollectSpikes(gridSeed, shuffling, files, stores);
      var path := StoreName(gridSeed, dur, shuffling, tuning);
      run.failure.None? && path in run.stores && TrajKey(t) in run.stores[path] &&
      t in files[i].contents.gridSpikes && t in files[i].contents.granuleSpikes &&
      run.stores[path][TrajKey(t)].gridSpikes == files[i].contents.gridSpikes[t] &&
      run.stores[path][TrajKey(t)].granuleSpikes == files[i].contents.granuleSpikes[t] &&
      run.stores[path][TrajKey(t)].parameters == files[i].contents.parameters
  {
    CollectedRecord(stores, files, gridSeed, shuffling, dur, tuning, t, i);
    FileWriteCopies(gridSeed, shuffling, files[i]);
  }

  /** When consolidation for a missing store succeeds and creates it, the
      spikes are read from the store it created. */
  lemma LoadAfterCollect(stores: Stores, listing: (int, string) -> seq<RawEntry>, path: string,
                         cellType: string, trajs: seq<Traj>, n: int)
    requires path !in stores && ParseStorePath(path).Ok?
    requires var f := ParseStorePath(path).value;
      var run := CollectSpikes(f.gridSeed, f.shuffling, listing(f.gridSeed, f.shuffling), stores);
      run.failure.None? && path in run.stores
    ensures var f := ParseStorePath(path).value;
      var run := CollectSpikes(f.gridSeed, f.shuffling, listing(f.gridSeed, f.shuffling), stores);
      LoadFromPath(stores, listing, path, cellType, trajs, n).result == LoadSpikes(run.stores[path], cellType, trajs, n)
  {
  }

  /** Reading a single readable trajectory yields its spikes. */
  lemma LoadOneTrajectory(store: Store, cellType: string, t: Traj, n: int)
    requires Loadable(store, cellType, t, n)
    ensures var r := LoadSpikes(store, cellType, [t], n);
      r.Ok? && t in r.value && LoadedFrom(store, cellType, t, n, r.value[t])
  {
  }

  /** The consolidated record of trajectory `t`, duration `dur` and tuning
      `tuning` is the one the last file named for them asks for. */
  lemma CollectedRecord(stores: Stores, files: seq<RawEntry>, gridSeed: int,
                        shuffling: string, dur: int, tuning: string, t: Traj, i: nat)
    requires KnownShuffling(shuffling)
    requires i < |files| && ParseRawName(files[i].stem) == Ok(RawName(TrajKey(t), t, dur, tuning))
    requires forall j :: 0 <= j < |files| ==> FileWrite(gridSeed, shuffling, files[j]).Ok?
    requires forall j :: i < j < |files| ==>
        !(FileWrite(gridSeed, shuffling, files[j]).value.storeName == StoreName(gridSeed, dur, shuffling, tuning) &&
          FileWrite(gridSeed, shuffling, files[j]).value.key == TrajKey(t))
    ensures Lookup(CollectSpikes(gridSeed, shuffling, files, stores).stores, StoreName(gridSeed, dur, shuffling, tuning), TrajKey(t))
         == Some(FileWrite(gridSeed, shuffling, files[i]).value.record)
  {
    var ws := PlanOf(FileWrites(gridSeed, shuffling, files)).writes;
    FileWriteCopies(gridSeed, shuffling, files[i]);
    assert ws[i] == FileWrite(gridSeed, shuffling, files[i]).value;
    LastWriteAt(ws, i);
    CollectLastWriterWins(gridSeed, shuffling, files, stores, StoreName(gridSeed, dur, shuffling, tuning), TrajKey(t));
  }

  /** What `load_spikes` returns for a non-empty trajectory list, when the
      samples it reads share one cell count, is an input `rate_n_phase`
      accepts for the same `n_samples`: it returns rather than raises. */
  lemma LoadThenEncode(store: Store, cellType: string, trajs: seq<Traj>, n: int, nCell: nat,
                       binSize: BinSize, dur: nat, cos: real -> real, sin: real -> real)
    requires |trajs| > 0 && LoadSpikes(store, cellType, trajs, n).Ok?
    requires StoredCellCount(store, cellType, trajs, n, nCell)
    ensures var v := LoadSpikes(store, cellType, trajs, n).value;
      Encodable(v, trajs, n, binSize, dur) && RateNPhase(v, trajs, n, binSize, dur, cos, sin).Ok?
  {
    var v := LoadSpikes(store, cellType, trajs, n).value;
    LoadedCellCount(store, cellType, trajs, n, nCell);
    assert Loadable(store, cellType, trajs[0], n);
    assert |v[trajs[0]][0]| == nCell;
    assert AllFit(v, trajs, n, nCell, NumBins(binSize, dur));
  }

  /** Under `StoredCellCount`, every trajectory `load_spikes` returns has
      `n` samples of `nCell` cells each. */
  lemma LoadedCellCount(store: Store, cellType: string, trajs: seq<Traj>, n: int, nCell: nat)
    requires LoadSpikes(store, cellType, trajs, n).Ok?
    requires StoredCellCount(store, cellType, trajs, n, nCell)
    ensures var v := LoadSpikes(store, cellType, trajs, n).value;
      Available(v, trajs, n) &&
      forall t, s :: 0 <= t < |trajs| && 0 <= s < n ==> |v[trajs[t]][s]| == nCell
  {
    var v := LoadSpikes(store, cellType, trajs, n).value;
    forall t, s | 0 <= t < |trajs| && 0 <= s < n
      ensures trajs[t] in v && |v[trajs[t]]| == n && |v[trajs[t]][s]| == nCell
    {
      assert Loadable(store, cellType, trajs[t], n);
      assert LoadedFrom(store, cellType, trajs[t], n, v[trajs[t]]);
    }
    forall t | 0 <= t < |trajs| ensures trajs[t] in v && |v[trajs[t]]| >= n {
      assert LoadedFrom(store, cellType, trajs[t], n, v[trajs[t]]);
    }
  }
}

=== FILE: matrix.dfy ===
/** Two-dimensional numpy arrays as sequences of rows, and their C-order
    (row-major) flattening. */
module Matrix {

  /** `m` is a `rows` x `cols` array. */
  predicate IsMatrix<T>(m: seq<seq<T>>, rows: nat, cols: nat)
  {
    |m| == rows && forall r :: 0 <= r < |m| ==> |m[r]| == cols
  }

  /** `m.flatten("C")`: the rows one after another. */
  function Flatten<T>(m: seq<seq<T>>): seq<T>
  {
    if |m| == 0 then [] else m[0] + Flatten(m[1..])
  }

  lemma {:induction false} MulMonotone(a: nat, b: nat, c: nat)
    requires a <= b
    ensures a * c <= b * c
    decreases b - a
  {
    if a < b {
      MulMonotone(a + 1, b, c);
      assert (a + 1) * c == a * c + c;
    }
  }

  /** Position of entry `(r, c)` in the C-order flattening of an array with `cols` columns. */
  function RowMajor(r: nat, c: nat, cols: nat): nat
  {
    r * cols + c
  }

  lemma RowMajorBound(r: nat, c: nat, rows: nat, cols: nat)
    requires r < rows && c < cols
    ensures RowMajor(r, c, cols) < rows * cols
  {
    MulMonotone(r + 1, rows, cols);
    assert (r + 1) * cols == r * cols + cols;
  }

  lemma {:induction false} FlattenLength<T>(m: seq<seq<T>>, rows: nat, cols: nat)
    requires IsMatrix(m, rows, cols)
    ensures |Flatten(m)| == rows * cols
    decreases rows
  {
    if rows > 0 {
      FlattenLength(m[1..], rows - 1, cols);
      assert rows * cols == cols + (rows - 1) * cols;
    }
  }

  lemma {:induction false} FlattenAt<T>(m: seq<seq<T>>, rows: nat, cols: nat, r: nat, c: nat)
    requires IsMatrix(m, rows, cols) && r < rows && c < cols
    ensures RowMajor(r, c, cols) < |Flatten(m)| && Flatten(m)[RowMajor(r, c, cols)] == m[r][c]
    decreases r
  {
    FlattenLength(m, rows, cols);
    RowMajorBound(r, c, rows, cols);
    if r > 0 {
      FlattenAt(m[1..], rows - 1, cols, r - 1, c);
      var k := RowMajor(r - 1, c, cols);
      assert RowMajor(r, c, cols) == cols + k;
      assert Flatten(m)[cols + k] == Flatten(m[1..])[k];
    }
  }

  /** The C-order flattening of a `rows` x `cols` array has `rows * cols`
      entries, and entry `(r, c)` sits at `r * cols + c`. */
  lemma FlattenIndex<T>(m: seq<seq<T>>, rows: nat, cols: nat)
    requires IsMatrix(m, rows, cols)
    ensures |Flatten(m)| == rows * cols
    ensures forall r, c :: 0 <= r < rows && 0 <= c < cols ==>
      RowMajor(r, c, cols) < |Flatten(m)| && Flatten(m)[RowMajor(r, c, cols)] == m[r][c]
  {
    FlattenLength(m, rows, cols);
    forall r, c | 0 <= r < rows && 0 <= c < cols
      ensures RowMajor(r, c, cols) < |Flatten(m)| && Flatten(m)[RowMajor(r, c, cols)] == m[r][c]
    {
      FlattenAt(m, rows, cols, r, c);
    }
  }

  /** Arrays of one shape flatten to sequences of one length. */
  lemma {:induction false} FlattenSameShape<T, U>(m1: seq<seq<T>>, m2: seq<seq<U>>)
    requires |m1| == |m2| && forall r :: 0 <= r < |m1| ==> |m1[r]| == |m2[r]|
    ensures |Flatten(m1)| == |Flatten(m2)|
    decreases |m1|
  {
    if |m1| > 0 {
      FlattenSameShape(m1[1..], m2[1..]);
    }
  }

  /** Every entry of `m`, rectangular or not, occurs in its flattening. */
  lemma {:induction false} EntryInFlatten<T>(m: seq<seq<T>>, r: nat, c: nat)
    requires r < |m| && c < |m[r]|
    ensures m[r][c] in Flatten(m)
    decreases r
  {
    if r > 0 {
      EntryInFlatten(m[1..], r - 1, c);
    }
  }
}

=== FILE: outcomes.dfy ===
/** Failure-carrying values shared by the whole model. Every exception the
    Python code can raise on a path the model covers becomes an `Error`. */
module Outcomes {

  datatype Option<+T> = None | Some(value: T)

  /** The exceptions raised by the coding pipeline and the spike store. */
  datatype Error =
    | EmptyTrajectoryList     // `trajectories[0]` on an empty list
    | UnknownTrajectory       // a trajectory missing from a spike collection or a store
    | MissingSample           // a sample index past the end of a trajectory's samples
    | ShapeMismatch           // a sample whose outputs cannot be stored in a slot of the batch's shape
    | NegativeDimension       // `np.empty` with a negative sample count
    | TooManySamples          // more samples requested than Poisson seeds stored
    | NonPositiveSamples      // `n_samples < 1`
    | UnknownCellType         // a cell type other than "grid" or "granule"
    | MissingSeed             // a stored Poisson seed without spikes
    | UnknownShuffling        // a shuffling label other than "shuffled" or "non-shuffled"
    | MalformedName           // a file or store name whose fields cannot be read
    | MissingRawTrajectory    // a raw file without spikes for the trajectory in its name

  datatype Result<+T> = Ok(value: T) | Fail(error: Error)
}

=== FILE: store.dfy ===
/** The consolidated spike store and `load_spikes` reading from it. A shelve
    file is a map from trajectory key (the trajectory's `str`) to a record
    holding grid-cell spikes, granule-cell spikes and the simulation
    parameters. */
module SpikeStore {
  import opened Outcomes
  import opened Text
  import opened Binning

  /** A trajectory label: the whole number `n`, or `n + 0.5`. */
  datatype Traj = Whole(n: nat) | Half(n: nat)

  /** `str(traj)`: "74" for 74, "74.5" for 74.5. */
  function TrajKey(t: Traj): (key: string)
    ensures |key| >= 1 && '_' !in key
    ensures HasHalfMark(key) <==> t.Half?
  {
    var digits := NatToString(t.n);
    assert t.Half? ==> (digits + ".5")[|digits|] == '.' && (digits + ".5")[|digits| + 1] == '5';

    match t
    case Whole(n) => NatToString(n)
    case Half(n) => NatToString(n) + ".5"
  }

  /** `float(key)` when the key contains ".5", `int(key)` otherwise. Only the
      spellings `<digits>` and `<digits>.5` are read; anything else fails. */
  function ParseTraj(key: string): (r: Option<Traj>)
    ensures r.Some? ==> (r.value.Half? <==> HasHalfMark(key))
    ensures r.Some? <==> (|key| > 0 && AllDigits(key)) ||
                         (|key| > 2 && key[|key| - 2..] == ".5" && AllDigits(key[..|key| - 2]))
    ensures r.Some? && r.value.Whole? ==> ParseNat(key) == Some(r.value.n)
    ensures r.Some? && r.value.Half? ==> |key| > 2 && ParseNat(key[..|key| - 2]) == Some(r.value.n)
  {
    if HasHalfMark(key) then
      HalfMarkIsNotDigit(key);
      if |key| >= 2 && key[|key| - 2..] == ".5" then
        match ParseNat(key[..|key| - 2])
        case Some(n) => Some(Half(n))
        case None => None
      else None
    else
      EndingHalfMark(key);
      match ParseNat(key)
      case Some(n) => Some(Whole(n))
      case None => None
  }

  /** A key containing ".5" is not all digits. */
  lemma HalfMarkIsNotDigit(key: string)
    requires HasHalfMark(key)
    ensures !AllDigits(key)
  {
    var i :| 0 <= i < |key| - 1 && key[i] == '.' && key[i + 1] == '5';
    assert !IsDigit(key[i]);
  }

  /** A key ending in ".5" contains ".5". */
  lemma EndingHalfMark(key: string)
    ensures |key| >= 2 && key[|key| - 2..] == ".5" ==> HasHalfMark(key)
  {
    if |key| >= 2 && key[|key| - 2..] == ".5" {
      assert key[|key| - 2] == '.' && key[|key| - 1] == '5';
    }
  }

  /** Reading a trajectory key gives back the trajectory it was written from. */
  lemma ParseTrajKey(t: Traj)
    ensures ParseTraj(TrajKey(t)) == Some(t)
  {
    var key := TrajKey(t);
    var digits := NatToString(t.n);
    DigitsValueOfNat(t.n);
    match t
    case Whole(n) =>
    case Half(n) =>
      assert key[|key| - 2..] == ".5";
      assert key[..|key| - 2] == digits;
      assert key[|digits|] == '.' && key[|digits| + 1] == '5';
  }

  /** Different trajectories have different keys. */
  lemma TrajKeyInjective(t1: Traj, t2: Traj)
    requires TrajKey(t1) == TrajKey(t2)
    ensures t1 == t2
  {
    ParseTrajKey(t1);
    ParseTrajKey(t2);
  }

  /** Spike trains of every cell, by Poisson seed. */
  type SeedSpikes = map<int, Sample>

  /** The simulation parameters the store reads: the Poisson seeds in the
      order the samples were generated. */
  datatype Parameters = Parameters(poissonSeeds: seq<int>)

  /** One trajectory's entry of a consolidated store. */
  datatype Record = Record(gridSpikes: SeedSpikes, granuleSpikes: SeedSpikes, parameters: Parameters)

  /** A consolidated shelve file: trajectory key to record. */
  type Store = map<string, Record>

  predicate KnownCellType(cellType: string)
  {
    cellType == "grid" || cellType == "granule"
  }

  function CellSpikes(rec: Record, cellType: string): SeedSpikes
    requires KnownCellType(cellType)
  {
    if cellType == "grid" then rec.gridSpikes else rec.granuleSpikes
  }

  /** `[all_spikes[p] for p in seeds]`, failing on a seed without spikes. */
  function PickSeeds(all: SeedSpikes, seeds: seq<int>): (r: Result<seq<Sample>>)
    ensures r.Ok? <==> forall j :: 0 <= j < |seeds| ==> seeds[j] in all
    ensures r.Ok? ==> |r.value| == |seeds| && forall j :: 0 <= j < |seeds| ==> r.value[j] == all[seeds[j]]
    ensures r.Fail? ==> r.error == MissingSeed
  {
    if |seeds| == 0 then Ok([])
    else if seeds[0] !in all then Fail(MissingSeed)
    else
      match PickSeeds(all, seeds[1..])
      case Fail(e) => Fail(e)
      case Ok(rest) => Ok([all[seeds[0]]] + rest)
  }

  /** Everything `load_spikes` needs to read trajectory `t`: its record, at
      least `n` (and at least one) seeds, a known cell type, and spikes for
      each of the first `n` seeds. */
  predicate Loadable(store: Store, cellType: string, t: Traj, n: int)
  {
    var key := TrajKey(t);
    key in store && 1 <= n <= |store[key].parameters.poissonSeeds| && KnownCellType(cellType) &&
    forall j :: 0 <= j < n ==> store[key].parameters.poissonSeeds[j] in CellSpikes(store[key], cellType)
  }

  /** `v` is what trajectory `t` holds: the spikes of `cellType` for the first
      `n` stored seeds, in stored order. */
  predicate LoadedFrom(store: Store, cellType: string, t: Traj, n: int, v: seq<Sample>)
  {
    Loadable(store, cellType, t, n) &&
    var rec := store[TrajKey(t)];
    |v| == n && forall j :: 0 <= j < n ==> v[j] == CellSpikes(rec, cellType)[rec.parameters.poissonSeeds[j]]
  }

  /** Every sample `load_spikes` would read for `trajs` (the spikes of
      `cellType` under the first `n` seeds of each readable trajectory) has
      `nCell` cells. */
  predicate StoredCellCount(store: Store, cellType: string, trajs: seq<Traj>, n: int, nCell: nat)
  {
    forall i, j :: 0 <= i < |trajs| && 0 <= j < n && Loadable(store, cellType, trajs[i], n) ==>
      |CellSpikes(store[TrajKey(trajs[i])], cellType)[store[TrajKey(trajs[i])].parameters.poissonSeeds[j]]| == nCell
  }

  /** One iteration of the loop of `load_spikes`, checks in the source's order. */
  function LoadOne(store: Store, cellType: string, t: Traj, n: int): (r: Result<seq<Sample>>)
    ensures r.Ok? <==> Loadable(store, cellType, t, n)
    ensures r.Ok? ==> LoadedFrom(store, cellType, t, n, r.value)
  {
    var key := TrajKey(t);
    if key !in store then Fail(UnknownTrajectory)
    else
      var seeds := store[key].parameters.poissonSeeds;
      if n > |seeds| then Fail(TooManySamples)
      else if n < 1 then Fail(NonPositiveSamples)
      else if !KnownCellType(cellType) then Fail(UnknownCellType)
      else PickSeeds(CellSpikes(store[key], cellType), seeds[..n])
  }

  /** `load_spikes` on an open store. For every listed trajectory the result
      holds the spikes of the requested cell type for the first `n_samples`
      stored Poisson seeds, in stored order; the first trajectory that cannot
      be read makes the whole call fail, and an empty list reads nothing. */
  function LoadSpikes(store: Store, cellType: string, trajs: seq<Traj>, n: int): (r: Result<map<Traj, seq<Sample>>>)
    ensures |trajs| == 0 ==> r == Ok(map[])
    ensures r.Ok? <==> forall i :: 0 <= i < |trajs| ==> Loadable(store, cellType, trajs[i], n)
    ensures r.Ok? ==> forall t :: t in r.value <==> t in trajs
    ensures r.Ok? ==> forall t :: t in r.value ==> LoadedFrom(store, cellType, t, n, r.value[t])
    decreases |trajs|
  {
    if |trajs| == 0 then Ok(map[])
    else
      HeadAndTail(trajs);
      match LoadOne(store, cellType, trajs[0], n)
      case Fail(e) => Fail(e)
      case Ok(v) =>
        match LoadSpikes(store, cellType, trajs[1..], n)
        case Fail(e) => Fail(e)
        case Ok(m) =>
          Ok(m[trajs[0] := v])
  }

  /** The elements of a non-empty list are its head and those of its tail. */
  lemma HeadAndTail<T>(s: seq<T>)
    requires |s| > 0
    ensures forall i :: 1 <= i < |s| ==> s[i] == s[1..][i - 1]
    ensures forall t :: t in s <==> t == s[0] || t in s[1..]
  {
    assert s == [s[0]] + s[1..];
  }

  /** The three ways `load_spikes` rejects a trajectory whose record exists:
      too many samples, fewer than one sample, an unknown cell type, checked
      in that order. */
  lemma LoadErrors(store: Store, cellType: string, t: Traj, n: int, rest: seq<Traj>)
    requires TrajKey(t) in store
    ensures var seeds := store[TrajKey(t)].parameters.poissonSeeds;
      var r := LoadSpikes(store, cellType, [t] + rest, n);
      (n > |seeds| ==> r == Fail(TooManySamples)) &&
      (n < 1 ==> r == Fail(NonPositiveSamples)) &&
      (1 <= n <= |seeds| && !KnownCellType(cellType) ==> r == Fail(UnknownCellType))
  {
  }

  /** A trajectory without a record is reported as unknown. */
  lemma LoadMissing(store: Store, cellType: string, t: Traj, n: int, rest: seq<Traj>)
    requires TrajKey(t) !in store
    ensures LoadSpikes(store, cellType, [t] + rest, n) == Fail(UnknownTrajectory)
  {
  }
}

=== FILE: text.dfy ===
/** The string handling the spike store relies on: Python's `str.split`
    with a one-character separator, joining with a separator, decimal
    formatting of integers (`str(n)`, f-strings) and `int(...)` parsing. */
module Text {
  import opened Outcomes

  /** `s.split(sep)`: the fields between separators, always at least one. */
  function Split(s: string, sep: char): (fields: seq<string>)
    ensures |fields| >= 1
    ensures forall i :: 0 <= i < |fields| ==> sep !in fields[i]
    decreases |s|
  {
    if |s| == 0 then [""]
    else
      var rest := Split(s[1..], sep);
      if s[0] == sep then [""] + rest
      else [[s[0]] + rest[0]] + rest[1..]
  }

  /** `sep.join(fields)`. */
  function Join(fields: seq<string>, sep: char): string
  {
    if |fields| == 0 then ""
    else if |fields| == 1 then fields[0]
    else fields[0] + [sep] + Join(fields[1..], sep)
  }

  lemma {:induction false} SplitWithoutSeparator(a: string, sep: char)
    requires sep !in a
    ensures Split(a, sep) == [a]
    decreases |a|
  {
    if |a| > 0 {
      SplitWithoutSeparator(a[1..], sep);
      assert [a[0]] + a[1..] == a;
    }
  }

  lemma {:induction false} SplitAfterField(a: string, rest: string, sep: char)
    requires sep !in a
    ensures Split(a + [sep] + rest, sep) == [a] + Split(rest, sep)
    decreases |a|
  {
    var s := a + [sep] + rest;
    if |a| == 0 {
      assert s[1..] == rest;
    } else {
      assert s[1..] == a[1..] + [sep] + rest;
      SplitAfterField(a[1..], rest, sep);
      assert [a[0]] + a[1..] == a;
    }
  }

  /** Splitting undoes joining when no field holds the separator. */
  lemma {:induction false} SplitJoin(fields: seq<string>, sep: char)
    requires |fields| >= 1
    requires forall i :: 0 <= i < |fields| ==> sep !in fields[i]
    ensures Split(Join(fields, sep), sep) == fields
    decreases |fields|
  {
    if |fields| == 1 {
      SplitWithoutSeparator(fields[0], sep);
    } else {
      SplitJoin(fields[1..], sep);
      SplitAfterField(fields[0], Join(fields[1..], sep), sep);
      assert [fields[0]] + fields[1..] == fields;
    }
  }

  /** Joining undoes splitting, for every string. */
  lemma {:induction false} JoinSplit(s: string, sep: char)
    ensures Join(Split(s, sep), sep) == s
    decreases |s|
  {
    if |s| > 0 {
      JoinSplit(s[1..], sep);
      var rest := Split(s[1..], sep);
      if s[0] != sep {
        if |rest| > 1 {
          assert Join(rest, sep) == rest[0] + [sep] + Join(rest[1..], sep);
          assert s == [s[0]] + s[1..];
        } else {
          assert s == [s[0]] + s[1..];
        }
      } else {
        assert s == [sep] + s[1..];
      }
    }
  }

  predicate IsDigit(c: char) { '0' <= c <= '9' }

  predicate AllDigits(s: string) { forall i :: 0 <= i < |s| ==> IsDigit(s[i]) }

  function DigitChar(d: nat): (c: char)
    requires d < 10
    ensures IsDigit(c) && c as int - '0' as int == d
  {
    ('0' as int + d) as char
  }

  /** `str(n)` for a non-negative integer: shortest decimal form. */
  function NatToString(n: nat): (s: string)
    ensures |s| >= 1 && AllDigits(s)
    ensures |s| > 1 ==> s[0] != '0'
  {
    if n < 10 then [DigitChar(n)] else NatToString(n / 10) + [DigitChar(n % 10)]
  }

  function DigitsValue(s: string): nat
    requires AllDigits(s)
  {
    if |s| == 0 then 0
    else DigitsValue(s[..|s| - 1]) * 10 + (s[|s| - 1] as int - '0' as int)
  }

  /** `int(s)` restricted to unsigned decimal text; anything else fails. */
  function ParseNat(s: string): (r: Option<nat>)
    ensures r.Some? <==> |s| > 0 && AllDigits(s)
  {
    if |s| > 0 && AllDigits(s) then Some(DigitsValue(s)) else None
  }

  /** `str(i)` / `f'{i}'` for an integer. */
  function IntToString(i: int): (s: string)
    ensures |s| >= 1
    ensures forall k :: 0 <= k < |s| ==> IsDigit(s[k]) || s[k] == '-'
    ensures '_' !in s && '.' !in s
    ensures s[0] == '-' <==> i < 0
  {
    if i < 0 then "-" + NatToString(-i) else NatToString(i)
  }

  /** `int(s)` for decimal text with an optional leading minus sign. */
  function ParseInt(s: string): (r: Option<int>)
    ensures r.Some? <==> (|s| > 0 && AllDigits(s)) || (|s| > 1 && s[0] == '-' && AllDigits(s[1..]))
    ensures r.Some? && AllDigits(s) ==> r.value >= 0
    ensures r.Some? && s[0] == '-' ==> r.value <= 0
  {
    if |s| > 0 && s[0] == '-' then
      match ParseNat(s[1..])
      case None => None
      case Some(n) => Some(0 - n as int)
    else
      match ParseNat(s)
      case None => None
      case Some(n) => Some(n)
  }

  lemma {:induction false} DigitsValueOfNat(n: nat)
    ensures DigitsValue(NatToString(n)) == n
  {
    var s := NatToString(n);
    if n >= 10 {
      DigitsValueOfNat(n / 10);
      assert s[..|s| - 1] == NatToString(n / 10);
    }
  }

  /** Parsing gives back the integer that was formatted. */
  lemma ParseIntToString(i: int)
    ensures ParseInt(IntToString(i)) == Some(i)
  {
    if i < 0 {
      var s := IntToString(i);
      assert s[1..] == NatToString(-i);
      DigitsValueOfNat(-i);
    } else {
      DigitsValueOfNat(i);
    }
  }

  /** Python's `s[1:-1]`: drop the first and the last character. */
  function StripEnds(s: string): (r: string)
    ensures |s| >= 2 ==> |r| == |s| - 2 && forall i :: 0 <= i < |r| ==> r[i] == s[i + 1]
    ensures |s| < 2 ==> r == ""
  {
    if |s| < 2 then "" else s[1..|s| - 1]
  }

  lemma StripEndsOfBracketed(x: string)
    ensures StripEnds("[" + x + "]") == x
  {
  }

  /** Python's `sub in s` for the two-character text ".5". */
  predicate HasHalfMark(s: string)
  {
    exists i :: 0 <= i < |s| - 1 && s[i] == '.' && s[i + 1] == '5'
  }
}
